=== FILE: README.md ===
# Self-healing element handle and browser session, in Dafny

This project models the two classes at the centre of a Selenium test
framework written in C#:

- `WebElement` is a handle on one page element. It remembers the locator
  that found the element, then runs every operation (`Displayed`, `Click`,
  `SendKeys`, `GetAttribute`, `ExecuteJS`, ...) in a deadline loop. When a
  remote call fails, the operation's `catch` clause decides three things:
  - whether to try again;
  - whether to look the element up afresh first (`InitElement`);
  - whether to store the failure in `lastException`, the field thrown
    when the deadline passes.
- `WebDriver` is the static session. It holds at most one open browser and
  the default timeout. It opens, navigates and quits the browser, waits
  for an attached page to finish loading, and handles JavaScript dialogs.

## How the model is built

- **Remote calls.** The remote browser is never called. Its answers are
  parameters:
  - the k-th element command is answered by `replies(k)`;
  - the k-th element lookup is answered by `lookups(k)`;
  - a `Cursor` counts how many of each have been used.

  Every operation also returns the trace of the remote calls it made, so
  contracts can speak about what was sent and to which element.
- **Deadlines.** Each deadline loop runs `clock(timeout)` iterations, where
  `clock` is a parameter standing for the wall clock. Each nested lookup
  loop gets the same budget.
- **Throwing a null `lastException`.** `throw lastException` with an empty
  field raises a null-reference error (`Remote.Thrown`).
- **Retry policies.** Each operation's catch clause becomes a
  `Engine.Discipline`, which records:
  - which failures are retried;
  - whether a retry rebinds the element;
  - whether retried failures are recorded;
  - whether failures that are rethrown are recorded;
  - whether the loop falls through silently at the deadline.
- **Modules.**
  - `Remote`: vocabulary of calls, errors and answers.
  - `Decimal`: integer rendering and parsing.
  - `Scripts`: the JavaScript snippets and recognisers that read them back.
  - `Engine`: the lookup loop and the shared deadline loop.
  - `LoopLaws`: the deadline loop with its iteration left abstract, and
    what runs of retried attempts do to it.
  - `EngineLaws`: the laws of the lookup loop and of the deadline loop.
  - `Element`: the handle's public operations.
  - `Driver`: the session.

## Model

| member | source | states |
|---|---|---|
| Remote.Thrown | Selenium/WebElementWrapper/WebElement.cs:42 | rethrowing the stored exception gives that exception, and a null-reference error when none is stored |
| Engine.InitElement | Selenium/WebElementWrapper/WebElement.cs:98-115 | the lookup loop makes at most one lookup per iteration of its budget, and on failure throws what `lastException` holds |
| EngineLaws.InitElementLooksUp | Selenium/WebElementWrapper/WebElement.cs:98-115 | the lookup loop only ever looks up its own locator |
| EngineLaws.InitElementFinds | Selenium/WebElementWrapper/WebElement.cs:98-115 | a successful lookup loop returns the element of its last lookup; every earlier lookup failed; `lastException` holds the failure just before it, or what it held on entry |
| EngineLaws.InitElementExhausts | Selenium/WebElementWrapper/WebElement.cs:98-115 | a failed lookup loop used its whole budget and every lookup failed; it throws the last lookup error, or the error held on entry when the budget was zero |
| Engine.Issue | Selenium/WebElementWrapper/WebElement.cs:155-166 | one pass through the `try` block sends at least one and at most all of its commands, and its result is the answer to the last command sent |
| EngineLaws.IssueLaws | Selenium/WebElementWrapper/WebElement.cs:155-166 | a pass sends its commands in order to the cached element and stops at the first failure; a pass that succeeds sent every command |
| Engine.Iterate | Selenium/WebElementWrapper/WebElement.cs:127-141 | one iteration keeps the handle's locator and timeout, and always moves the command counter forward |
| Engine.Poll | Selenium/WebElementWrapper/WebElement.cs:121-143 | the deadline loop never moves a counter backwards, and with budget left it sends at least one command |
| EngineLaws.IterateEnds | Selenium/WebElementWrapper/WebElement.cs:127-141 | an iteration ends the loop only with a value or an exception; a value leaves the handle unchanged and comes from a complete attempt |
| EngineLaws.SucceedingIteration | Selenium/WebElementWrapper/WebElement.cs:127-130 | a command that succeeds ends the loop with its value |
| EngineLaws.PermanentIteration | Selenium/WebElementWrapper/WebElement.cs:134-140 | a failure outside the catch list is rethrown at once, with no lookup |
| EngineLaws.RetriedIteration | Selenium/WebElementWrapper/WebElement.cs:34-40 | a read property retries any failure on the same cached element |
| EngineLaws.RebindingIteration | Selenium/WebElementWrapper/WebElement.cs:134-138 | when the first lookup of the rebind finds the element, a retried failure is followed by exactly one lookup of the handle's locator, and the new element is the one found |
| EngineLaws.FailedRebindIteration | Selenium/WebElementWrapper/WebElement.cs:137 | when the nested lookup loop fails, its error escapes the operation |
| EngineLaws.PollKeepsHandle | Selenium/WebElementWrapper/WebElement.cs:121-143 | the loop keeps the handle's locator and timeout, moves both counters forward, falls through silently only for a silent policy, and returns only a value the browser sent |
| EngineLaws.PollLooksUpWith | Selenium/WebElementWrapper/WebElement.cs:137 | every lookup the loop makes uses the handle's own locator |
| EngineLaws.PollSends | Selenium/WebElementWrapper/WebElement.cs:150-178 | every command the loop sends is one of the operation's own commands |
| EngineLaws.PollKeepsElement | Selenium/WebElementWrapper/WebElement.cs:25-44 | a loop that never rebinds makes no lookup, keeps the cached element, and sends every command to it |
| EngineLaws.PollBindsOnlyFound | Selenium/WebElementWrapper/WebElement.cs:105 | the cached element changes only to an element that one of the run's own lookups found |
| EngineLaws.PollConforms | Selenium/WebElementWrapper/WebElement.cs:121-143 | the loop satisfies all of the frame laws above together |
| EngineLaws.PollIsLoop | Selenium/WebElementWrapper/WebElement.cs:121-143 | the deadline loop of an element operation is the abstract loop run over one iteration of that operation |
| LoopLaws.LoopRetries | Selenium/WebElementWrapper/WebElement.cs:121-143 | retried attempts use one iteration each and leave the loop to go on from where they stopped; `lastException` then holds the last of their failures when the policy records retried failures, and what it held before otherwise |
| LoopLaws.LoopStops | Selenium/WebElementWrapper/WebElement.cs:121-143 | retried attempts followed by one that throws an error the policy does not retry end the loop with that error, stored in `lastException` under a policy that records what it rethrows, and `lastException` left as it was under a policy that records nothing |
| LoopLaws.LoopExhausts | Selenium/WebElementWrapper/WebElement.cs:121-143 | retried attempts that use up the whole budget make the loop fall through under a silent policy and throw `lastException` otherwise |
| EngineLaws.RecoversAfterRetries | Selenium/WebElementWrapper/WebElement.cs:121-143 | after any number of attempts that each fail, at any of their commands, with a retried error (each followed, where the policy rebinds, by a lookup that finds at once), the first attempt inside the budget whose commands all succeed ends the loop with the reply to its last command |
| EngineLaws.StopsAtPermanent | Selenium/WebElementWrapper/WebElement.cs:121-235 | after retried failures, each rebind finding the element at its first lookup, the first failure the policy does not retry is thrown at once and the rest of the budget is left unused; a policy that records rethrown failures leaves it in `lastException`, and one that records nothing (that of `Click`) leaves `lastException` as it found it |
| EngineLaws.ExhaustsBudget | Selenium/WebElementWrapper/WebElement.cs:121-207 | when every attempt in the budget fails with a retried error and every rebind finds the element at its first lookup: `Click` falls through; the others throw the last failure if the policy records retried failures, and otherwise whatever `lastException` held on entry |
| EngineLaws.RebindFailureEscapes | Selenium/WebElementWrapper/WebElement.cs:98-115 | a nested lookup loop that runs out ends the operation with the last lookup error, with budget still left |
| EngineLaws.SuccessIsLastAttempt | Selenium/WebElementWrapper/WebElement.cs:155-166 | a loop that returns a value ends with one complete attempt on the element it is bound to |
| Element.Locate | Selenium/WebElementWrapper/WebElement.cs:88-115 | the constructor looks up only its locator; on success the handle holds the found element, that locator and timeout, and the previous lookup failure; on failure every lookup failed and the error is the last lookup failure, or a null reference when the budget was zero |
| Element.Perform | Selenium/WebElementWrapper/WebElement.cs:121-143 | an operation's loop satisfies the frame laws of its policy |
| Element.Displayed | Selenium/WebElementWrapper/WebElement.cs:25-44 | sends only display checks, to the cached element, without a lookup; never falls through; returns only a display state the browser sent |
| Element.Enabled | Selenium/WebElementWrapper/WebElement.cs:46-65 | sends only enabled checks, to the cached element, without a lookup; never falls through; returns only an enabled state the browser sent |
| Element.Text | Selenium/WebElementWrapper/WebElement.cs:67-86 | sends only text reads, to the cached element, without a lookup; never falls through; returns only a text the browser sent |
| Element.Click | Selenium/WebElementWrapper/WebElement.cs:121-143 | sends only clicks; looks up only the handle's locator; may fall through silently at the deadline; returns only what the browser sent |
| Element.Keystrokes | Selenium/WebElementWrapper/WebElement.cs:157-162 | for any text other than the chord itself, the select-all chord is sent iff the old text is to be deleted; the text is always sent last |
| Element.SendKeys | Selenium/WebElementWrapper/WebElement.cs:150-178 | sends only the attempt's keystrokes; looks up only the handle's locator; never falls through |
| Element.Clear | Selenium/WebElementWrapper/WebElement.cs:183-207 | sends only clears; looks up only the handle's locator; never falls through |
| Element.GetAttribute | Selenium/WebElementWrapper/WebElement.cs:214-235 | reads only the named attribute and returns only what the browser sent, including an absent attribute |
| Element.GetCssValue | Selenium/WebElementWrapper/WebElement.cs:242-263 | reads only the named CSS property and returns only what the browser sent; `StaleOnlyRecovers` and `StaleOnlyStopsAtOtherFailure` state the read and the stale-only retry |
| Element.Submit | Selenium/WebElementWrapper/WebElement.cs:268-290 | sends only submits and never falls through; `StaleOnlyRecovers` and `StaleOnlyStopsAtOtherFailure` state the submit and the stale-only retry |
| Element.ExecuteJS | Selenium/WebElementWrapper/WebElement.cs:372-391 | sends only the given script and never falls through |
| Element.ScrollIntoView | Selenium/WebElementWrapper/WebElement.cs:298-303 | every script sent reads back as `scrollIntoView` with the requested alignment; `ScrollIntoViewRecovers` states that the script is run |
| Element.ScrollBy | Selenium/WebElementWrapper/WebElement.cs:310-314 | every script sent reads back as `window.scrollBy` with exactly the offsets given; `ScrollByRecovers` states that the script is run |
| Element.JSClick | Selenium/WebElementWrapper/WebElement.cs:319-322 | sends only the fixed click script; `JSClickRecovers` states that the script is run |
| Element.ExecuteMouseEvent | Selenium/WebElementWrapper/WebElement.cs:345-351 | for an event name without quotes, every script sent dispatches exactly that event; `MouseEventsRecover` states that the script is run |
| Element.JSMouseClick | Selenium/WebElementWrapper/WebElement.cs:327-330 | every script sent dispatches a `click` event; `MouseEventsRecover` states that the script is run |
| Element.JSMouseOver | Selenium/WebElementWrapper/WebElement.cs:336-339 | every script sent dispatches a `mouseover` event; `MouseEventsRecover` states that the script is run |
| Element.ReadsRethrowLastFailure | Selenium/WebElementWrapper/WebElement.cs:25-86 | when every attempt fails, `Displayed`, `Enabled` and `Text` each throw the last failure and store it, after one command per iteration and no lookup |
| Element.ReadsRecover | Selenium/WebElementWrapper/WebElement.cs:25-86 | after failures of any kind, `Displayed`, `Enabled` and `Text` each return the first answer that goes through within the budget, with no lookup |
| Element.GetAttributeStopsAtOtherFailure | Selenium/WebElementWrapper/WebElement.cs:214-235 | after stale-reference retries, each rebind finding the element at its first lookup, any other failure is thrown at once and stored in `lastException` |
| Element.ExecuteJSRecovers | Selenium/WebElementWrapper/WebElement.cs:372-391 | after failures of any kind, each followed by a successful lookup, the first successful run inside the budget ends the call, and that run of the script on the bound element is the last call made |
| Element.ScrollIntoViewRecovers | Selenium/WebElementWrapper/WebElement.cs:298-303 | under the conditions in which `ExecuteJS` recovers, `ScrollIntoView` ends normally, having run the `scrollIntoView` script with the requested alignment on the bound element as the last call |
| Element.ScrollByRecovers | Selenium/WebElementWrapper/WebElement.cs:310-314 | under the conditions in which `ExecuteJS` recovers, `ScrollBy` ends normally, having run the `scrollBy` script with the given offsets on the bound element as the last call |
| Element.JSClickRecovers | Selenium/WebElementWrapper/WebElement.cs:319-322 | under the conditions in which `ExecuteJS` recovers, `JSClick` ends normally, having run the click script on the bound element as the last call |
| Element.MouseEventsRecover | Selenium/WebElementWrapper/WebElement.cs:327-351 | under the conditions in which `ExecuteJS` recovers, `ExecuteMouseEvent`, `JSMouseClick` and `JSMouseOver` each end normally, having run the dispatch of their event (the named one, `click`, `mouseover`) on the bound element as the last call |
| Element.StaleOnlyStopsAtOtherFailure | Selenium/WebElementWrapper/WebElement.cs:242-290 | for `GetCssValue` and `Submit`: after stale-reference retries, each rebind finding the element at its first lookup, any other failure is thrown at once and stored in `lastException` |
| Element.StaleOnlyRecovers | Selenium/WebElementWrapper/WebElement.cs:214-290 | `GetAttribute`, `GetCssValue` and `Submit`, after stale-reference failures each followed by a successful lookup, return the first reply that goes through, their last call being the attribute read, the property read or the submit on the rebound element |
| Element.ClickFallsThrough | Selenium/WebElementWrapper/WebElement.cs:121-143 | a `Click` whose attempts all fail transiently, each rebind finding the element at its first lookup, returns normally and leaves `lastException` as it was; with no budget it sends nothing |
| Element.ClearRethrowsPrevious | Selenium/WebElementWrapper/WebElement.cs:183-207 | a `Clear` whose attempts all fail transiently, each rebind finding the element at its first lookup, throws what `lastException` held before the call |
| Element.ClearRetriesClickIntercepted | Selenium/WebElementWrapper/WebElement.cs:193-201 | `Clear` catches invalid-state failures and so also rebinds and retries an intercepted click, which derives from that kind, while the stale-only policy does not; an intercepted attempt followed by one that goes through ends normally |
| Element.SendKeysOrder | Selenium/WebElementWrapper/WebElement.cs:155-166 | a successful `SendKeys` ends by sending, to the element it is bound to, the select-all chord and then the text, or the text alone |
| Element.SendKeysRecovers | Selenium/WebElementWrapper/WebElement.cs:150-178 | after attempts that fail transiently at any keystroke, with or without the select-all chord, each rebind finding the element at its first lookup, the first attempt whose keystrokes all go through ends the call normally |
| Element.SendKeysStopsAtOtherFailure | Selenium/WebElementWrapper/WebElement.cs:164-177 | after transient failures, each rebind finding the element at its first lookup, a failure `SendKeys` does not catch, at the chord or at the text, is thrown at once and stored in `lastException` |
| Element.ClearThrowsNull | Selenium/WebElementWrapper/WebElement.cs:193-206 | on a handle with an empty `lastException`, a `Clear` whose attempts all fail transiently, each rebind finding the element at its first lookup, raises a null-reference error, not the failure it saw |
| Element.ClearReported | Selenium/WebElementWrapper/WebElement.cs:183-207 | `Clear` with transient failures recorded keeps the same frame laws |
| Element.SendKeysReported | Selenium/WebElementWrapper/WebElement.cs:150-178 | `SendKeys` with transient failures recorded keeps the same frame laws |
| Element.ClearReportedRaisesLastFailure | Selenium/WebElementWrapper/WebElement.cs:193-206 | with failures recorded, a `Clear` that runs out of time, each rebind finding the element at its first lookup, throws and stores the last failure it saw |
| Element.SendKeysReportedRaisesLastFailure | Selenium/WebElementWrapper/WebElement.cs:164-177 | with failures recorded, a `SendKeys` that runs out of time, each rebind finding the element at its first lookup, whichever keystroke each attempt failed at and whether or not the old text is to go, throws and stores the failure that ended its last attempt |
| Decimal.IntToString | Selenium/WebElementWrapper/WebElement.cs:312 | a rendered integer is a minus sign exactly when it is negative, followed by a non-empty run of digits with no leading zero (zero itself renders as "0") |
| Decimal.ParseNatToString | Selenium/WebElementWrapper/WebElement.cs:312 | reading back a rendered natural number gives that number |
| Decimal.IntToStringRoundTrip | Selenium/WebElementWrapper/WebElement.cs:312 | reading back a rendered integer, negative ones included, gives that integer |
| Decimal.IntToStringHasNoSeparators | Selenium/WebElementWrapper/WebElement.cs:312 | a rendered integer contains no comma, parenthesis or space, so the `scrollBy` arguments can be split apart |
| Scripts.Between | Selenium/WebElementWrapper/WebElement.cs:300-301 | a text found between a prefix and a suffix rebuilds the whole script |
| Scripts.BetweenWrapped | Selenium/WebElementWrapper/WebElement.cs:300-301 | wrapping a text in a prefix and a suffix and unwrapping it gives the text back |
| Scripts.ScrollIntoViewRoundTrip | Selenium/WebElementWrapper/WebElement.cs:298-303 | the `scrollIntoView` script reads back as the alignment it was built from |
| Scripts.SplitAt | Selenium/WebElementWrapper/WebElement.cs:312 | splitting at a separator rebuilds the input, and the separator is not in the first part |
| Scripts.SplitAtJoin | Selenium/WebElementWrapper/WebElement.cs:312 | joining two parts with a separator that the first part lacks, then splitting, gives the parts back |
| Scripts.ScrollByRoundTrip | Selenium/WebElementWrapper/WebElement.cs:310-314 | the `scrollBy` script reads back as the two offsets it was built from |
| Scripts.MouseEventRoundTrip | Selenium/WebElementWrapper/WebElement.cs:345-351 | the dispatch script of an event name without quotes reads back as that event |
| Scripts.AlertRoundTrip | Selenium/WebDriverWrapper/WebDriver.cs:191-194 | the alert script of a text without quotes reads back as that text |
| Scripts.AlertTextIsNotEscaped | Selenium/WebDriverWrapper/WebDriver.cs:191-194 | the alert script is the alert wrapper around exactly the given text, whatever it holds, so a text holding a quote, backslash or line break does not produce an alert of that text |
| Driver.Quit | Selenium/WebDriverWrapper/WebDriver.cs:259-263 | with no browser open, a null-reference error and nothing changes; otherwise the browser is closed and the session has no driver |
| Driver.NavigateTo | Selenium/WebDriverWrapper/WebDriver.cs:182-185 | with no browser, a null-reference error; otherwise it succeeds iff the browser accepts, and only then is the address updated |
| Driver.RefreshPage | Selenium/WebDriverWrapper/WebDriver.cs:174-177 | the session is unchanged; the call succeeds iff a browser is open and accepts |
| Driver.OpenBrowser | Selenium/WebDriverWrapper/WebDriver.cs:121-149 | the browser type becomes Chrome; a failed launch leaves no driver; a successful launch makes the new browser the driver, and the call succeeds iff navigation does |
| Driver.OpenBrowserLeavesOne | Selenium/WebDriverWrapper/WebDriver.cs:121-140 | after opening, exactly one browser is running, the new one; a browser open before has been quit |
| Driver.SessionStaysValid | Selenium/WebDriverWrapper/WebDriver.cs:26 | the initial session is valid, and every session call keeps the rule that the only running browser is the session's own driver; after `Quit` none is running |
| Driver.LoadLoop | Selenium/WebDriverWrapper/WebDriver.cs:88-103 | the wait ends at the first check that reports the page complete, and none within the budget did if it gives up |
| Driver.LoadFailure | Selenium/WebDriverWrapper/WebDriver.cs:105 | the load failure is a bare exception whose message names, in decimal, the timeout it gave up after |
| Driver.TryLoadPage | Selenium/WebDriverWrapper/WebDriver.cs:86-116 | succeeds iff some check within the budget reports the page complete; otherwise fails with the load-failure message for the timeout |
| Driver.AttachToPage | Selenium/WebDriverWrapper/WebDriver.cs:58-79 | with no browser, the not-opened error and nothing changes; otherwise the page's own timeout, if any, replaces the default even when loading then fails, and the page is bound to the open driver iff it loads |
| Driver.AlertLoop | Selenium/WebDriverWrapper/WebDriver.cs:227-254 | only the requested close action is ever taken, at most once per iteration; with no browser a null-reference error escapes |
| Driver.HandleAlert | Selenium/WebDriverWrapper/WebDriver.cs:227-254 | the requested action only; with no browser a null-reference error; with no budget the empty text and no action |
| Driver.GetAlertText | Selenium/WebDriverWrapper/WebDriver.cs:201-204 | only the requested close action is taken; with no browser a null-reference error; with no budget the empty text and no action |
| Driver.AcceptAlert | Selenium/WebDriverWrapper/WebDriver.cs:209-212 | takes only the accept action, makes the dialog loop's calls, and succeeds exactly when the accepting loop does, failing with its error otherwise |
| Driver.DismissAlert | Selenium/WebDriverWrapper/WebDriver.cs:217-220 | takes only the dismiss action, makes the dialog loop's calls, and succeeds exactly when the dismissing loop does, failing with its error otherwise |
| Driver.NoAlertReadsEmpty | Selenium/WebDriverWrapper/WebDriver.cs:229-253 | if no dialog ever shows, the loop returns the empty text and closes nothing |
| Driver.FirstAlertHandled | Selenium/WebDriverWrapper/WebDriver.cs:232-251 | the first dialog that shows ends the loop with its text, closed as requested, after any number of passes that found none |
| Driver.GetAlertTextReadsFirst | Selenium/WebDriverWrapper/WebDriver.cs:201-204 | the text returned is that of the first dialog that shows within the budget, closed once as requested; when none shows, the empty text and no close call |
| Driver.AcceptAlertAccepts | Selenium/WebDriverWrapper/WebDriver.cs:209-212 | the first dialog that shows is accepted, once, and the call succeeds |
| Driver.DismissAlertDismisses | Selenium/WebDriverWrapper/WebDriver.cs:217-220 | the first dialog that shows is dismissed, once, and the call succeeds |
| Driver.OtherFailureEscapes | Selenium/WebDriverWrapper/WebDriver.cs:234-250 | any failure other than a missing dialog escapes at once, whether the switch, the read of the text or the accept or dismiss threw it; the dialog was closed only in the last case |
| Driver.CreateAlert | Selenium/WebDriverWrapper/WebDriver.cs:191-194 | with no browser, a null-reference error and nothing sent; otherwise one script, the alert wrapper around exactly the text, unescaped, which for a text without quotes shows exactly that text |
| Driver.CreatedAlertIsRead | Selenium/Tests/FrameworkStabilityTests.cs:38-39 | a dialog created with "Alert: Hi!" is read back as exactly "Alert: Hi!" and accepted |

## Left out

- Launching the browser. The launcher's path and options, `Maximize`, the
  implicit wait and `window.focus()` are left out. A launch or navigation
  failure is a parameter. Every other call that follows is assumed to succeed.
- `LoadAjax` and `ExecuteCondition`. Nothing calls them.
- `InitMouseEvent`. It is obsolete, and no caller in the core uses it.
- The `Url` and `Title` properties and the raw `Element` property. They
  read through to the browser and hold no logic.
- `LoadPage`. It becomes the `ready` parameter of `TryLoadPage`, which
  gives the result of each page-ready check.
- Wall-clock time. The clock is the `Clock` parameter, the number of
  iterations a deadline allows. The rounding of a deadline to iterations
  is not modelled.
- Failures of `Quit` on the remote side. The browser is assumed to close.
- The element factory (`WebElementFactory`). Only its two lookup kinds
  survive, as the `Locator` datatype.
- The page object's type. `AttachToPage` takes only the page's optional
  timeout.
- The page object returned by `AttachToPage`. The model returns the driver
  number in its place.
- Element.ExecuteMouseEvent: the contract says nothing about an event
  name holding a quote, because such a name breaks out of the string
  literal and the snippet's meaning is then unknown.
- Driver.AlertLoop: when the close call finds the dialog gone, the text
  already read is kept and the loop goes round again. No lemma covers
  this path on its own.
- EngineLaws.StopsAtPermanent (and `RecoversAfterRetries`, `ExhaustsBudget`
  and the element lemmas built on them): stated only for rebinds that find
  the element at their first lookup. A rebind that misses before it finds
  leaves the miss in `lastException`, and what is then stored or thrown is
  not stated; a rebind that never finds is covered by `RebindFailureEscapes`.
- Decimal.IntToString: string interpolation formats with the current
  culture; the model, and so `ScrollBy` and `LoadFailure`, assume a culture
  whose negative sign is the ASCII hyphen-minus.

## Findings

| source | as written | input that shows it | evidently intended | confidence | as-written member | corrected member |
|---|---|---|---|---|---|---|
| Selenium/WebElementWrapper/WebElement.cs:164-177, 193-206 | `SendKeys` and `Clear` store a failure in `lastException` only when they rethrow it at once. Transient failures are retried without being recorded. When every rebind finds the element at its first lookup, the nested lookup loop records nothing either, and the deadline then throws the stored field. | A handle whose first lookup succeeded, so `lastException` is null. A budget of one iteration. The `Clear` call fails with `ElementNotVisible`, and the following lookup succeeds. The deadline then throws a null reference, not `ElementNotVisible`. | At the deadline, throw the last failure seen, as the read properties, `GetAttribute` and `ExecuteJS` do. | medium, not executed | Element.ClearThrowsNull | Element.ClearReportedRaisesLastFailure |

The other deadline loops store every failure before going round again: the
read properties and the lookup loop at Selenium/WebElementWrapper/WebElement.cs:38,
59, 80 and 110, and `GetAttribute` and `ExecuteJS` in their catch blocks, so
at the deadline they throw the last failure seen. The code of `SendKeys` and
`Clear` does not, as the finding above shows. The model follows the code: `Element.Clear` and
`Element.SendKeys` are as written. `Element.ClearReported` and
`Element.SendKeysReported` are the corrected forms.

=== FILE: decimal.dfy ===
/**
 Decimal rendering of integers, as string interpolation of an `int` produces it
 under a culture whose negative sign is the ASCII hyphen-minus (interpolation
 formats with the current culture; an `int` is never grouped), together with
 the parser that reads such a rendering back.
 */
module Decimal {
  import opened Remote

  predicate IsDigit(ch: char) {
    '0' <= ch <= '9'
  }

  predicate AllDigits(s: string) {
    forall k :: 0 <= k < |s| ==> IsDigit(s[k])
  }

  function Digit(d: nat): (ch: char)
    requires d < 10
    ensures IsDigit(ch)
  {
    (('0' as int) + d) as char
  }

  function DigitValue(ch: char): (d: nat)
    requires IsDigit(ch)
    ensures d < 10 && Digit(d) == ch
  {
    (ch as int) - ('0' as int)
  }

  /** Most significant digit first, no leading zeros. */
  function NatToString(n: nat): (s: string)
    ensures |s| > 0 && AllDigits(s)
    ensures s[0] == '0' ==> n == 0 && s == "0"
    decreases n
  {
    if n < 10 then [Digit(n)] else NatToString(n / 10) + [Digit(n % 10)]
  }

  function IntToString(i: int): (s: string)
    ensures |s| > 0
    ensures i < 0 <==> s[0] == '-'
    ensures forall k :: 0 < k < |s| ==> IsDigit(s[k])
    ensures var digits := if i < 0 then s[1..] else s;
      && |digits| > 0 && AllDigits(digits)
      && (digits[0] == '0' ==> i == 0 && digits == "0")
  {
    if i < 0 then "-" + NatToString(-i) else NatToString(i)
  }

  function DigitsValue(s: string): nat
    requires AllDigits(s)
    decreases |s|
  {
    if |s| == 0 then 0 else DigitsValue(s[..|s| - 1]) * 10 + DigitValue(s[|s| - 1])
  }

  function ParseNat(s: string): Option<nat> {
    if |s| > 0 && AllDigits(s) then Some(DigitsValue(s)) else None
  }

  function ParseInt(s: string): Option<int> {
    if |s| > 1 && s[0] == '-' then
      match ParseNat(s[1..])
      case Some(n) => if n == 0 then None else Some(0 - n as int)
      case None => None
    else ParseNat(s)
  }

  /** Reading back a rendered natural number gives the number. */
  lemma {:induction false} ParseNatToString(n: nat)
    ensures ParseNat(NatToString(n)) == Some(n)
    decreases n
  {
    var s := NatToString(n);
    if n >= 10 {
      ParseNatToString(n / 10);
      assert s[..|s| - 1] == NatToString(n / 10);
      assert DigitsValue(s) == DigitsValue(NatToString(n / 10)) * 10 + n % 10;
    }
  }

  /** Reading back a rendered integer gives the integer. */
  lemma IntToStringRoundTrip(i: int)
    ensures ParseInt(IntToString(i)) == Some(i)
  {
    if i < 0 {
      ParseNatToString(-i);
      assert IntToString(i)[1..] == NatToString(-i);
    } else {
      ParseNatToString(i);
    }
  }

  /** A rendered integer never contains the separators used around it in scripts. */
  lemma IntToStringHasNoSeparators(i: int)
    ensures ',' !in IntToString(i) && ')' !in IntToString(i) && ' ' !in IntToString(i)
  {
    var s := IntToString(i);
    forall k | 0 <= k < |s|
      ensures s[k] != ',' && s[k] != ')' && s[k] != ' '
    {
      if k > 0 { assert IsDigit(s[k]); }
    }
  }
}

=== FILE: driver.dfy ===
/**
 The static browser session: at most one open driver, the default timeout
 every element handle and every session loop starts from, the page-ready
 poll that `AttachToPage` runs, and the loop that switches to a JavaScript
 dialog, reads it and closes it.

 The session is a value threaded through the operations; launching a
 browser, navigating, checking `document.readyState` and talking to a
 dialog are answered by parameters.
 */
module Driver {
  import opened Remote
  import Decimal
  import opened Scripts

  datatype BrowserType = IE | Chrome | Edge | Firefox

  /** `GetBrowser`: the choice of browser is fixed. */
  const ChosenBrowser := Chrome

  /** The initial value of `DefaultTimeout`, in seconds. */
  const InitialTimeout := 120

  const NotOpenedMessage := "Browser is not opened. Use OpenBrowser() method first"

  /**
   The static fields: the open driver (the number of the browser it
   drives), the browsers still running, how many have been launched, the
   default timeout, the browser type and the address last navigated to.
   */
  datatype Session = Session(driver: Option<nat>, live: set<nat>, launched: nat, defaultTimeout: int,
                             browserType: BrowserType, url: string)

  /** The state before any call; the browser type starts at the first member of its enumeration. */
  const Initial := Session(None, {}, 0, InitialTimeout, IE, "")

  /** The only browser still running is the open one, and it was launched by this session. */
  ghost predicate Valid(s: Session) {
    && s.live == (if s.driver.Some? then {s.driver.value} else {})
    && (s.driver.Some? ==> s.driver.value < s.launched)
  }

  /** What a session call returns and the session it leaves behind. */
  datatype Effect<T> = Effect(result: Result<T>, session: Session)

  /** Closes the open browser; with none open, dereferencing the empty driver fails. */
  function Quit(s: Session): (r: Effect<()>)
    ensures s.driver.None? ==> r == Effect(Err(NullReference(NullMessage)), s)
    ensures s.driver.Some? ==>
      && r.result.Ok? && r.session.driver.None? && s.driver.value !in r.session.live
      && r.session == s.(driver := None, live := r.session.live) && r.session.live <= s.live
  {
    match s.driver
    case None => Effect(Err(NullReference(NullMessage)), s)
    case Some(id) => Effect(Ok(()), s.(driver := None, live := s.live - {id}))
  }

  /** Loads `url` in the open browser; `reply` is the transport's answer. */
  function NavigateTo(s: Session, url: string, reply: Option<Error>): (r: Effect<()>)
    ensures s.driver.None? ==> r == Effect(Err(NullReference(NullMessage)), s)
    ensures s.driver.Some? ==> (r.result.Ok? <==> reply.None?) && (r.result.Err? ==> r.result.error == reply.value)
    ensures r.session == (if r.result.Ok? then s.(url := url) else s)
  {
    match s.driver
    case None => Effect(Err(NullReference(NullMessage)), s)
    case Some(_) =>
      match reply
      case Some(e) => Effect(Err(e), s)
      case None => Effect(Ok(()), s.(url := url))
  }

  /** Reloads the current page; `reply` is the transport's answer. */
  function RefreshPage(s: Session, reply: Option<Error>): (r: Effect<()>)
    ensures r.session == s
    ensures r.result.Ok? <==> s.driver.Some? && reply.None?
    ensures s.driver.None? ==> r.result == Err(NullReference(NullMessage))
  {
    match s.driver
    case None => Effect(Err(NullReference(NullMessage)), s)
    case Some(_) =>
      match reply
      case Some(e) => Effect(Err(e), s)
      case None => Effect(Ok(()), s)
  }

  /**
   Quits a browser that is still open, launches a new one (`launch` is the
   launcher's failure, if any) and navigates it to `url`.
   */
  function OpenBrowser(s: Session, url: string, launch: Option<Error>, navigation: Option<Error>): (r: Effect<()>)
    ensures r.session.browserType == ChosenBrowser && r.session.defaultTimeout == s.defaultTimeout
    ensures launch.Some? ==> r.result == Err(launch.value) && r.session.driver.None?
    ensures launch.None? ==>
      && r.session.driver == Some(s.launched) && r.session.launched == s.launched + 1
      && (r.result.Ok? <==> navigation.None?)
  {
    var s1 := if s.driver.Some? then Quit(s).session else s;
    var s2 := s1.(browserType := ChosenBrowser);
    if s2.browserType == Chrome then
      match launch
      case Some(e) => Effect(Err(e), s2)
      case None =>
        var id := s2.launched;
        NavigateTo(s2.(driver := Some(id), live := s2.live + {id}, launched := id + 1), url, navigation)
    else
      NavigateTo(s2, url, navigation)
  }

  /**
   `OpenBrowser` leaves exactly one browser running, the one it launched;
   a browser open before has been quit.
   */
  lemma OpenBrowserLeavesOne(s: Session, url: string, navigation: Option<Error>)
    requires Valid(s)
    ensures var r := OpenBrowser(s, url, None, navigation);
      && Valid(r.session) && r.session.live == {s.launched} && r.session.driver == Some(s.launched)
      && (s.driver.Some? ==> s.driver.value !in r.session.live)
  {
  }

  /** Every session call keeps the session valid. */
  lemma SessionStaysValid(s: Session, url: string, launch: Option<Error>, reply: Option<Error>,
                          pageTimeout: Option<int>, clock: Clock, ready: Replies<bool>)
    requires Valid(s)
    ensures Valid(Initial)
    ensures Valid(Quit(s).session) && Quit(s).session.live == {}
    ensures Valid(OpenBrowser(s, url, launch, reply).session)
    ensures Valid(NavigateTo(s, url, reply).session) && Valid(RefreshPage(s, reply).session)
    ensures Valid(AttachToPage(s, pageTimeout, clock, ready).session)
  {
  }

  /** The first check within `fuel` iterations, starting at `k`, that saw the page complete. */
  function LoadLoop(fuel: nat, ready: Replies<bool>, k: nat): (r: Option<nat>)
    ensures r.Some? ==> k <= r.value < k + fuel && ready(r.value) == Ok(true)
    ensures r.Some? ==> forall j :: k <= j < r.value ==> ready(j) != Ok(true)
    ensures r.None? ==> forall j :: k <= j < k + fuel ==> ready(j) != Ok(true)
    decreases fuel
  {
    if fuel == 0 then None
    else if ready(k) == Ok(true) then Some(k)
    else LoadLoop(fuel - 1, ready, k + 1)
  }

  const LoadFailurePrefix := "Unable to load page after "
  const LoadFailureSuffix := " seconds"

  /**
   The exception `TryLoadPage` throws once its deadline has passed: a bare
   exception whose message names, in decimal, the timeout it gave up after.
   */
  function LoadFailure(timeout: int): (e: Error)
    ensures e.Plain?
    ensures match Between(LoadFailurePrefix, LoadFailureSuffix, e.message)
            case Some(t) => Decimal.ParseInt(t) == Some(timeout)
            case None => false
  {
    BetweenWrapped(LoadFailurePrefix, Decimal.IntToString(timeout), LoadFailureSuffix);
    Decimal.IntToStringRoundTrip(timeout);
    Plain(LoadFailurePrefix + Decimal.IntToString(timeout) + LoadFailureSuffix)
  }

  /**
   Polls `document.readyState` until it reads "complete". `ready(k)` is the
   k-th check: `LoadPage`'s wait with a zero timeout either reports the
   page complete or fails, and every failure or negative answer leads to
   another iteration.
   */
  function TryLoadPage(timeout: int, clock: Clock, ready: Replies<bool>): (r: Result<bool>)
    ensures r.Ok? <==> exists k :: 0 <= k < clock(timeout) && ready(k) == Ok(true)
    ensures r.Ok? ==> r.value
    ensures r.Err? ==> r.error == LoadFailure(timeout)
  {
    match LoadLoop(clock(timeout), ready, 0)
    case Some(_) => Ok(true)
    case None => Err(LoadFailure(timeout))
  }

  /**
   Attaches to the page in the open browser: checks that a browser is
   open, lets a page that sets its own timeout overwrite the default, and
   waits for the page to load.  The result is the driver the page is bound
   to.
   */
  function AttachToPage(s: Session, pageTimeout: Option<int>, clock: Clock, ready: Replies<bool>): (r: Effect<nat>)
    ensures s.driver.None? ==> r == Effect(Err(NullReference(NotOpenedMessage)), s)
    ensures s.driver.Some? ==>
      && r.session == s.(defaultTimeout := if pageTimeout.Some? then pageTimeout.value else s.defaultTimeout)
      && (r.result.Ok? <==> exists k :: 0 <= k < clock(r.session.defaultTimeout) && ready(k) == Ok(true))
      && (r.result.Ok? ==> r.result.value == s.driver.value)
      && (r.result.Err? ==> r.result.error == LoadFailure(r.session.defaultTimeout))
  {
    match s.driver
    case None => Effect(Err(NullReference(NotOpenedMessage)), s)
    case Some(id) =>
      var s1 := if pageTimeout.Some? then s.(defaultTimeout := pageTimeout.value) else s;
      match TryLoadPage(s1.defaultTimeout, clock, ready)
      case Err(e) => Effect(Err(e), s1)
      case Ok(_) => Effect(Ok(id), s1)
  }

  /** One pass of the dialog loop: switching to the dialog, reading its text, and accepting or dismissing it. */
  datatype Dialog = Dialog(text: Result<string>, closing: Option<Error>)

  datatype AlertAction = Accept | Dismiss

  /** What the dialog loop returns, with the accept or dismiss calls it made. */
  datatype Handled = Handled(result: Result<string>, actions: seq<AlertAction>)

  function ActionFor(accept: bool): AlertAction {
    if accept then Accept else Dismiss
  }

  /**
   The dialog loop, from the `k`-th pass with `fuel` passes left and
   `alertText` read so far.  Only a missing dialog is retried, wherever in
   the pass it shows; every other failure escapes.
   */
  function AlertLoop(open: bool, accept: bool, fuel: nat, dialogs: Replies<Dialog>, k: nat, alertText: string): (r: Handled)
    ensures forall a :: a in r.actions ==> a == ActionFor(accept)
    ensures |r.actions| <= fuel
    ensures !open && fuel > 0 ==> r == Handled(Err(NullReference(NullMessage)), [])
    decreases fuel
  {
    if fuel == 0 then Handled(Ok(alertText), [])
    else if !open then Handled(Err(NullReference(NullMessage)), [])
    else
      match dialogs(k)
      case Err(e) =>
        if e == NoAlertPresent then AlertLoop(open, accept, fuel - 1, dialogs, k + 1, alertText)
        else Handled(Err(e), [])
      case Ok(dialog) =>
        match dialog.text
        case Err(e) =>
          if e == NoAlertPresent then AlertLoop(open, accept, fuel - 1, dialogs, k + 1, alertText)
          else Handled(Err(e), [])
        case Ok(text) =>
          match dialog.closing
          case None => Handled(Ok(text), [ActionFor(accept)])
          case Some(e) =>
            if e == NoAlertPresent then
              var r := AlertLoop(open, accept, fuel - 1, dialogs, k + 1, text);
              r.(actions := [ActionFor(accept)] + r.actions)
            else Handled(Err(e), [ActionFor(accept)])
  }

  /** `HandleAlert`: the dialog loop with the session's default timeout, starting from an empty text. */
  function HandleAlert(s: Session, accept: bool, clock: Clock, dialogs: Replies<Dialog>): (r: Handled)
    ensures forall a :: a in r.actions ==> a == ActionFor(accept)
    ensures s.driver.None? && clock(s.defaultTimeout) > 0 ==> r.result == Err(NullReference(NullMessage))
    ensures clock(s.defaultTimeout) == 0 ==> r == Handled(Ok(""), [])
  {
    AlertLoop(s.driver.Some?, accept, clock(s.defaultTimeout), dialogs, 0, "")
  }

  /** Reads the dialog's text and closes it as `accept` says. */
  function GetAlertText(s: Session, accept: bool, clock: Clock, dialogs: Replies<Dialog>): (r: Handled)
    ensures forall a :: a in r.actions ==> a == ActionFor(accept)
    ensures s.driver.None? && clock(s.defaultTimeout) > 0 ==> r.result == Err(NullReference(NullMessage))
    ensures clock(s.defaultTimeout) == 0 ==> r == Handled(Ok(""), [])
  {
    HandleAlert(s, accept, clock, dialogs)
  }

  /** What `AcceptAlert` and `DismissAlert` return: no text, only success or the failure, with the calls they made. */
  datatype Closed = Closed(result: Result<()>, actions: seq<AlertAction>)

  /** Accepts the dialog; the text read is discarded. */
  function AcceptAlert(s: Session, clock: Clock, dialogs: Replies<Dialog>): (r: Closed)
    ensures forall a :: a in r.actions ==> a == Accept
    ensures var h := HandleAlert(s, true, clock, dialogs);
      && (r.result.Ok? <==> h.result.Ok?)
      && (r.result.Err? ==> h.result == Err(r.result.error))
      && r.actions == h.actions
  {
    var h := HandleAlert(s, true, clock, dialogs);
    match h.result
    case Ok(_) => Closed(Ok(()), h.actions)
    case Err(e) => Closed(Err(e), h.actions)
  }

  /** Dismisses the dialog; the text read is discarded. */
  function DismissAlert(s: Session, clock: Clock, dialogs: Replies<Dialog>): (r: Closed)
    ensures forall a :: a in r.actions ==> a == Dismiss
    ensures var h := HandleAlert(s, false, clock, dialogs);
      && (r.result.Ok? <==> h.result.Ok?)
      && (r.result.Err? ==> h.result == Err(r.result.error))
      && r.actions == h.actions
  {
    var h := HandleAlert(s, false, clock, dialogs);
    match h.result
    case Ok(_) => Closed(Ok(()), h.actions)
    case Err(e) => Closed(Err(e), h.actions)
  }

  /** A pass that found no dialog: the switch or the read of its text threw the missing-dialog failure. */
  predicate NoDialog(reply: Result<Dialog>) {
    reply == Err(NoAlertPresent) || (reply.Ok? && reply.value.text == Err(NoAlertPresent))
  }

  /** A pass that broke with `e`: the switch, the read of the text, or the accept or dismiss threw it. */
  predicate BreaksWith(reply: Result<Dialog>, e: Error) {
    || reply == Err(e)
    || (reply.Ok? && reply.value.text == Err(e))
    || (reply.Ok? && reply.value.text.Ok? && reply.value.closing == Some(e))
  }

  /** The browser never shows a dialog within the budget: the loop returns the empty text and closes nothing. */
  lemma {:induction false} NoAlertReadsEmpty(accept: bool, fuel: nat, dialogs: Replies<Dialog>, k: nat, alertText: string)
    requires forall j :: k <= j < k + fuel ==> NoDialog(dialogs(j))
    ensures AlertLoop(true, accept, fuel, dialogs, k, alertText) == Handled(Ok(alertText), [])
    decreases fuel
  {
    if fuel > 0 {
      NoAlertReadsEmpty(accept, fuel - 1, dialogs, k + 1, alertText);
    }
  }

  /**
   The first dialog that shows, reads and closes cleanly ends the loop with
   its text, closed the way the flag says, after any number of passes that
   found no dialog.
   */
  lemma {:induction false} FirstAlertHandled(accept: bool, fuel: nat, dialogs: Replies<Dialog>, k: nat, alertText: string,
                                             n: nat, text: string)
    requires n < fuel
    requires forall j :: k <= j < k + n ==> NoDialog(dialogs(j))
    requires dialogs(k + n) == Ok(Dialog(Ok(text), None))
    ensures AlertLoop(true, accept, fuel, dialogs, k, alertText) == Handled(Ok(text), [ActionFor(accept)])
    decreases n
  {
    if n > 0 {
      FirstAlertHandled(accept, fuel - 1, dialogs, k + 1, alertText, n - 1, text);
    }
  }

  /**
   A failure other than a missing dialog escapes the loop at once, whether
   the switch, the read of the text or the accept or dismiss threw it; only
   in the last case was the dialog closed.
   */
  lemma {:induction false} OtherFailureEscapes(accept: bool, fuel: nat, dialogs: Replies<Dialog>, k: nat, alertText: string,
                                               n: nat, e: Error)
    requires n < fuel && e != NoAlertPresent
    requires forall j :: k <= j < k + n ==> NoDialog(dialogs(j))
    requires BreaksWith(dialogs(k + n), e)
    ensures var r := AlertLoop(true, accept, fuel, dialogs, k, alertText);
      && r.result == Err(e)
      && r.actions == (if dialogs(k + n).Ok? && dialogs(k + n).value.text.Ok? then [ActionFor(accept)] else [])
    decreases n
  {
    if n > 0 {
      OtherFailureEscapes(accept, fuel - 1, dialogs, k + 1, alertText, n - 1, e);
    }
  }

  /**
   `GetAlertText` returns the text of the first dialog that shows within the
   budget, closed once as the flag says; when none shows, the empty text and
   no close call.
   */
  lemma GetAlertTextReadsFirst(s: Session, accept: bool, clock: Clock, dialogs: Replies<Dialog>, n: nat, text: string)
    requires s.driver.Some? && n < clock(s.defaultTimeout)
    requires forall j :: 0 <= j < n ==> NoDialog(dialogs(j))
    ensures dialogs(n) == Ok(Dialog(Ok(text), None)) ==>
      GetAlertText(s, accept, clock, dialogs) == Handled(Ok(text), [ActionFor(accept)])
    ensures (forall j :: 0 <= j < clock(s.defaultTimeout) ==> NoDialog(dialogs(j))) ==>
      GetAlertText(s, accept, clock, dialogs) == Handled(Ok(""), [])
  {
    if dialogs(n) == Ok(Dialog(Ok(text), None)) {
      FirstAlertHandled(accept, clock(s.defaultTimeout), dialogs, 0, "", n, text);
    }
    if forall j :: 0 <= j < clock(s.defaultTimeout) ==> NoDialog(dialogs(j)) {
      NoAlertReadsEmpty(accept, clock(s.defaultTimeout), dialogs, 0, "");
    }
  }

  /** `AcceptAlert` accepts the first dialog that shows and reports success. */
  lemma AcceptAlertAccepts(s: Session, clock: Clock, dialogs: Replies<Dialog>, n: nat, text: string)
    requires s.driver.Some? && n < clock(s.defaultTimeout)
    requires forall j :: 0 <= j < n ==> NoDialog(dialogs(j))
    requires dialogs(n) == Ok(Dialog(Ok(text), None))
    ensures AcceptAlert(s, clock, dialogs) == Closed(Ok(()), [Accept])
  {
    FirstAlertHandled(true, clock(s.defaultTimeout), dialogs, 0, "", n, text);
  }

  /** `DismissAlert` dismisses the first dialog that shows and reports success. */
  lemma DismissAlertDismisses(s: Session, clock: Clock, dialogs: Replies<Dialog>, n: nat, text: string)
    requires s.driver.Some? && n < clock(s.defaultTimeout)
    requires forall j :: 0 <= j < n ==> NoDialog(dialogs(j))
    requires dialogs(n) == Ok(Dialog(Ok(text), None))
    ensures DismissAlert(s, clock, dialogs) == Closed(Ok(()), [Dismiss])
  {
    FirstAlertHandled(false, clock(s.defaultTimeout), dialogs, 0, "", n, text);
  }

  /** Shows the dialog `text` through a script run by the open driver; `reply` is the transport's answer. */
  datatype Scripted = Scripted(result: Result<()>, sent: seq<string>)

  function CreateAlert(s: Session, text: string, reply: Option<Error>): (r: Scripted)
    ensures s.driver.None? ==> r == Scripted(Err(NullReference(NullMessage)), [])
    ensures s.driver.Some? ==> |r.sent| == 1 && (r.result.Ok? <==> reply.None?)
    ensures s.driver.Some? ==> Between(AlertPrefix, AlertSuffix, r.sent[0]) == Some(text)
    ensures QuoteSafe(text) ==> forall script :: script in r.sent ==> AlertMessage(script) == Some(text)
  {
    match s.driver
    case None => Scripted(Err(NullReference(NullMessage)), [])
    case Some(_) =>
      AlertTextIsNotEscaped(text);
      if QuoteSafe(text) then
        AlertRoundTrip(text);
        Scripted(if reply.None? then Ok(()) else Err(reply.value), [AlertScript(text)])
      else
        Scripted(if reply.None? then Ok(()) else Err(reply.value), [AlertScript(text)])
  }

  /**
   The stability check of the test suite: the dialog created with
   "Alert: Hi!" is, once the browser shows it, the text `GetAlertText`
   returns, and it is accepted.
   */
  lemma CreatedAlertIsRead(s: Session, clock: Clock, dialogs: Replies<Dialog>)
    requires s.driver.Some? && clock(s.defaultTimeout) > 0
    requires var shown := AlertMessage(CreateAlert(s, "Alert: Hi!", None).sent[0]);
      shown.Some? && dialogs(0) == Ok(Dialog(Ok(shown.value), None))
    ensures GetAlertText(s, true, clock, dialogs) == Handled(Ok("Alert: Hi!"), [Accept])
  {
    assert QuoteSafe("Alert: Hi!");
    FirstAlertHandled(true, clock(s.defaultTimeout), dialogs, 0, "", 0, "Alert: Hi!");
  }
}

=== FILE: element.dfy ===
/**
 The public operations of the element handle.  Each one is the deadline
 loop of `Engine` run with the operation's commands and catch clause, the
 handle's timeout giving the budget of the loop and of every rebind inside
 it; the script helpers build a snippet and hand it to `ExecuteJS`.
 */
module Element {
  import opened Remote
  import opened Engine
  import opened EngineLaws
  import opened Scripts

  /** `Keys.Control + "a"`: the chord that selects the text already in a field. */
  const SelectAll: string := "\U{E009}a"

  datatype Created = Created(handle: Result<Handle>, cursor: Cursor, trace: seq<Call>)

  /**
   The constructor, which both factory lookups (by XPath and by link text)
   reach: remember the locator and the timeout, then `InitElement` with an
   empty `lastException`.  With a zero budget it throws that empty slot.
   */
  function Locate(locator: Locator, timeout: int, clock: Clock, lookups: Replies<ElemRef>, c: Cursor): (r: Created)
    ensures r.cursor == Cursor(c.acts, c.finds + |r.trace|) && |r.trace| <= clock(timeout)
    ensures LooksUpOnly(r.trace, locator)
    ensures r.handle.Ok? ==>
      && r.handle.value.locator == locator && r.handle.value.timeout == timeout
      && |r.trace| > 0 && lookups(r.cursor.finds - 1) == Ok(r.handle.value.element)
      && (forall k :: c.finds <= k < r.cursor.finds - 1 ==> lookups(k).Err?)
      && r.handle.value.lastError == (if |r.trace| == 1 then None else Some(lookups(r.cursor.finds - 2).error))
    ensures r.handle.Err? ==>
      && (forall k :: c.finds <= k < c.finds + clock(timeout) ==> lookups(k).Err?)
      && r.handle.error
         == (if clock(timeout) == 0 then NullReference(NullMessage) else lookups(c.finds + clock(timeout) - 1).error)
  {
    var budget := clock(timeout);
    InitElementLooksUp(locator, None, budget, lookups, c);
    InitElementFinds(locator, None, budget, lookups, c);
    InitElementExhausts(locator, None, budget, lookups, c);
    var b := InitElement(locator, None, budget, lookups, c);
    match b.found
    case Ok(el) => Created(Ok(Handle(locator, timeout, el, b.lastError)), b.cursor, b.trace)
    case Err(e) => Created(Err(e), b.cursor, b.trace)
  }

  /**
   An operation's loop: its commands under its discipline, with the
   handle's timeout as the budget of the loop and of every rebind.
   */
  function Perform<T>(d: Discipline, cmds: seq<Command>, h: Handle, clock: Clock,
                      replies: Replies<T>, lookups: Replies<ElemRef>, c: Cursor): (r: Run<T>)
    requires |cmds| > 0
    ensures Conforms(d, cmds, h, c, replies, lookups, r)
  {
    var budget := clock(h.timeout);
    PollConforms(d, cmds, h, budget, budget, replies, lookups, c);
    Poll(d, cmds, h, budget, budget, replies, lookups, c)
  }

  function Displayed(h: Handle, clock: Clock, replies: Replies<bool>, lookups: Replies<ElemRef>, c: Cursor): (r: Run<bool>)
    ensures Conforms(ReadAny, [IsDisplayed], h, c, replies, lookups, r)
  {
    Perform(ReadAny, [IsDisplayed], h, clock, replies, lookups, c)
  }

  function Enabled(h: Handle, clock: Clock, replies: Replies<bool>, lookups: Replies<ElemRef>, c: Cursor): (r: Run<bool>)
    ensures Conforms(ReadAny, [IsEnabled], h, c, replies, lookups, r)
  {
    Perform(ReadAny, [IsEnabled], h, clock, replies, lookups, c)
  }

  function Text(h: Handle, clock: Clock, replies: Replies<string>, lookups: Replies<ElemRef>, c: Cursor): (r: Run<string>)
    ensures Conforms(ReadAny, [ReadText], h, c, replies, lookups, r)
  {
    Perform(ReadAny, [ReadText], h, clock, replies, lookups, c)
  }

  function Click(h: Handle, clock: Clock, replies: Replies<()>, lookups: Replies<ElemRef>, c: Cursor): (r: Run<()>)
    ensures Conforms(ClickRetry, [ClickOn], h, c, replies, lookups, r)
  {
    Perform(ClickRetry, [ClickOn], h, clock, replies, lookups, c)
  }

  /** The commands of one `SendKeys` attempt: the select-all chord first iff the old text is to go. */
  function Keystrokes(keys: string, deletePrevText: bool): (cmds: seq<Command>)
    ensures |cmds| > 0 && cmds[|cmds| - 1] == SendText(keys)
    ensures keys != SelectAll ==> (SendText(SelectAll) in cmds <==> deletePrevText)
    ensures |cmds| == (if deletePrevText then 2 else 1)
  {
    if deletePrevText then [SendText(SelectAll), SendText(keys)] else [SendText(keys)]
  }

  function SendKeys(keys: string, deletePrevText: bool, h: Handle, clock: Clock,
                    replies: Replies<()>, lookups: Replies<ElemRef>, c: Cursor): (r: Run<()>)
    ensures Conforms(InputRetry, Keystrokes(keys, deletePrevText), h, c, replies, lookups, r)
  {
    Perform(InputRetry, Keystrokes(keys, deletePrevText), h, clock, replies, lookups, c)
  }

  function Clear(h: Handle, clock: Clock, replies: Replies<()>, lookups: Replies<ElemRef>, c: Cursor): (r: Run<()>)
    ensures Conforms(InputRetry, [ClearText], h, c, replies, lookups, r)
  {
    Perform(InputRetry, [ClearText], h, clock, replies, lookups, c)
  }

  /** The transport answers an attribute read with the value, or with nothing when the attribute is absent. */
  function GetAttribute(name: string, h: Handle, clock: Clock,
                        replies: Replies<Option<string>>, lookups: Replies<ElemRef>, c: Cursor): (r: Run<Option<string>>)
    ensures Conforms(StaleRetry, [ReadAttribute(name)], h, c, replies, lookups, r)
  {
    Perform(StaleRetry, [ReadAttribute(name)], h, clock, replies, lookups, c)
  }

  function GetCssValue(name: string, h: Handle, clock: Clock,
                       replies: Replies<string>, lookups: Replies<ElemRef>, c: Cursor): (r: Run<string>)
    ensures Conforms(StaleRetry, [ReadCssValue(name)], h, c, replies, lookups, r)
  {
    Perform(StaleRetry, [ReadCssValue(name)], h, clock, replies, lookups, c)
  }

  function Submit(h: Handle, clock: Clock, replies: Replies<()>, lookups: Replies<ElemRef>, c: Cursor): (r: Run<()>)
    ensures Conforms(StaleRetry, [SubmitForm], h, c, replies, lookups, r)
  {
    Perform(StaleRetry, [SubmitForm], h, clock, replies, lookups, c)
  }

  function ExecuteJS(script: string, h: Handle, clock: Clock,
                     replies: Replies<()>, lookups: Replies<ElemRef>, c: Cursor): (r: Run<()>)
    ensures Conforms(ScriptRetry, [Execute(script)], h, c, replies, lookups, r)
  {
    Perform(ScriptRetry, [Execute(script)], h, clock, replies, lookups, c)
  }

  /** Every command in the trace runs a script that the recogniser `read` maps to `meaning`. */
  ghost predicate ScriptsMean<X>(trace: seq<Call>, read: string -> Option<X>, meaning: X) {
    forall call :: call in trace && call.Act? ==> call.command.Execute? && read(call.command.script) == Some(meaning)
  }

  function ScrollIntoView(alignToTop: bool, h: Handle, clock: Clock,
                          replies: Replies<()>, lookups: Replies<ElemRef>, c: Cursor): (r: Run<()>)
    ensures ScriptsMean(r.trace, ScrollIntoViewArgument, alignToTop)
  {
    ScrollIntoViewRoundTrip(alignToTop);
    ExecuteJS(ScrollIntoViewScript(alignToTop), h, clock, replies, lookups, c)
  }

  function ScrollBy(x: int, y: int, h: Handle, clock: Clock,
                    replies: Replies<()>, lookups: Replies<ElemRef>, c: Cursor): (r: Run<()>)
    ensures ScriptsMean(r.trace, ScrollByOffsets, (x, y))
  {
    ScrollByRoundTrip(x, y);
    ExecuteJS(ScrollByScript(x, y), h, clock, replies, lookups, c)
  }

  function JSClick(h: Handle, clock: Clock, replies: Replies<()>, lookups: Replies<ElemRef>, c: Cursor): (r: Run<()>)
    ensures Conforms(ScriptRetry, [Execute(ClickScript)], h, c, replies, lookups, r)
  {
    ExecuteJS(ClickScript, h, clock, replies, lookups, c)
  }

  /** Dispatches a synthetic mouse event of type `kind`; a kind holding a quote breaks out of the literal. */
  function ExecuteMouseEvent(kind: string, h: Handle, clock: Clock,
                             replies: Replies<()>, lookups: Replies<ElemRef>, c: Cursor): (r: Run<()>)
    ensures QuoteSafe(kind) ==> ScriptsMean(r.trace, DispatchedEvent, kind)
  {
    if QuoteSafe(kind) then MouseEventRoundTrip(kind); ExecuteJS(MouseEventScript(kind), h, clock, replies, lookups, c)
    else ExecuteJS(MouseEventScript(kind), h, clock, replies, lookups, c)
  }

  function JSMouseClick(h: Handle, clock: Clock, replies: Replies<()>, lookups: Replies<ElemRef>, c: Cursor): (r: Run<()>)
    ensures ScriptsMean(r.trace, DispatchedEvent, "click")
  {
    ExecuteMouseEvent("click", h, clock, replies, lookups, c)
  }

  function JSMouseOver(h: Handle, clock: Clock, replies: Replies<()>, lookups: Replies<ElemRef>, c: Cursor): (r: Run<()>)
    ensures ScriptsMean(r.trace, DispatchedEvent, "mouseover")
  {
    ExecuteMouseEvent("mouseover", h, clock, replies, lookups, c)
  }

  /** A read under `ReadAny` whose every attempt fails throws and stores the last failure, with no lookup. */
  lemma {:induction false} ReadAnyExhausts<T>(cmd: Command, h: Handle, clock: Clock, replies: Replies<T>, lookups: Replies<ElemRef>, c: Cursor)
    requires clock(h.timeout) > 0
    requires forall k :: c.acts <= k < c.acts + clock(h.timeout) ==> replies(k).Err?
    ensures var r := Perform(ReadAny, [cmd], h, clock, replies, lookups, c);
      && r.outcome == Raised(replies(c.acts + clock(h.timeout) - 1).error)
      && r.handle.lastError == Some(replies(c.acts + clock(h.timeout) - 1).error)
      && r.cursor == Cursor(c.acts + clock(h.timeout), c.finds)
  {
    var budget := clock(h.timeout);
    assert FailsRetriably(ReadAny, replies, c.acts, budget);
    SingleAttemptsFail(ReadAny, cmd, replies, c.acts, budget);
    ExhaustsBudget(ReadAny, [cmd], h, budget, budget, replies, lookups, c, FirstFailures(budget));
    PollKeepsElement(ReadAny, [cmd], h, budget, budget, replies, lookups, c);
  }

  /** A read under `ReadAny` returns the first reply that goes through within the budget, whatever failed before it. */
  lemma {:induction false} ReadAnyRecovers<T>(cmd: Command, h: Handle, clock: Clock, replies: Replies<T>, lookups: Replies<ElemRef>,
                                              c: Cursor, n: nat, v: T)
    requires n < clock(h.timeout)
    requires forall k :: c.acts <= k < c.acts + n ==> replies(k).Err?
    requires replies(c.acts + n) == Ok(v)
    ensures var r := Perform(ReadAny, [cmd], h, clock, replies, lookups, c);
      r.outcome == Value(v) && r.cursor == Cursor(c.acts + n + 1, c.finds) && r.handle.element == h.element
  {
    var budget := clock(h.timeout);
    assert FailsRetriably(ReadAny, replies, c.acts, n);
    SingleAttemptsFail(ReadAny, cmd, replies, c.acts, n);
    assert Answered(replies, c.acts + n);
    RecoversAfterRetries(ReadAny, [cmd], h, budget, budget, replies, lookups, c, FirstFailures(n), v);
    PollKeepsElement(ReadAny, [cmd], h, budget, budget, replies, lookups, c);
  }

  /**
   `Displayed`, `Enabled` and `Text` retry any failure on the cached element
   and, once the budget is spent, throw the last failure they saw, having
   sent one command per iteration and made no lookup.
   */
  lemma {:induction false} ReadsRethrowLastFailure(h: Handle, clock: Clock, flags: Replies<bool>, texts: Replies<string>,
                                                   lookups: Replies<ElemRef>, c: Cursor)
    requires clock(h.timeout) > 0
    ensures (forall k :: c.acts <= k < c.acts + clock(h.timeout) ==> flags(k).Err?) ==>
      var last := flags(c.acts + clock(h.timeout) - 1);
      var d, e := Displayed(h, clock, flags, lookups, c), Enabled(h, clock, flags, lookups, c);
      && last.Err?
      && d.outcome == Raised(last.error) && d.handle.lastError == Some(last.error)
      && d.cursor == Cursor(c.acts + clock(h.timeout), c.finds)
      && e.outcome == Raised(last.error) && e.handle.lastError == Some(last.error)
      && e.cursor == Cursor(c.acts + clock(h.timeout), c.finds)
    ensures (forall k :: c.acts <= k < c.acts + clock(h.timeout) ==> texts(k).Err?) ==>
      var last := texts(c.acts + clock(h.timeout) - 1);
      var t := Text(h, clock, texts, lookups, c);
      && last.Err?
      && t.outcome == Raised(last.error) && t.handle.lastError == Some(last.error)
      && t.cursor == Cursor(c.acts + clock(h.timeout), c.finds)
  {
    if forall k :: c.acts <= k < c.acts + clock(h.timeout) ==> flags(k).Err? {
      ReadAnyExhausts(IsDisplayed, h, clock, flags, lookups, c);
      ReadAnyExhausts(IsEnabled, h, clock, flags, lookups, c);
    }
    if forall k :: c.acts <= k < c.acts + clock(h.timeout) ==> texts(k).Err? {
      ReadAnyExhausts(ReadText, h, clock, texts, lookups, c);
    }
  }

  /**
   `Displayed`, `Enabled` and `Text` return the first answer that goes
   through within the budget, whatever failures came before it, on the
   element they were bound to.
   */
  lemma {:induction false} ReadsRecover(h: Handle, clock: Clock, flags: Replies<bool>, texts: Replies<string>,
                                        lookups: Replies<ElemRef>, c: Cursor, n: nat)
    requires n < clock(h.timeout)
    ensures (forall k :: c.acts <= k < c.acts + n ==> flags(k).Err?) && flags(c.acts + n).Ok? ==>
      && Displayed(h, clock, flags, lookups, c).outcome == Value(flags(c.acts + n).value)
      && Enabled(h, clock, flags, lookups, c).outcome == Value(flags(c.acts + n).value)
      && Displayed(h, clock, flags, lookups, c).cursor == Cursor(c.acts + n + 1, c.finds)
    ensures (forall k :: c.acts <= k < c.acts + n ==> texts(k).Err?) && texts(c.acts + n).Ok? ==>
      && Text(h, clock, texts, lookups, c).outcome == Value(texts(c.acts + n).value)
      && Text(h, clock, texts, lookups, c).cursor == Cursor(c.acts + n + 1, c.finds)
  {
    if (forall k :: c.acts <= k < c.acts + n ==> flags(k).Err?) && flags(c.acts + n).Ok? {
      ReadAnyRecovers(IsDisplayed, h, clock, flags, lookups, c, n, flags(c.acts + n).value);
      ReadAnyRecovers(IsEnabled, h, clock, flags, lookups, c, n, flags(c.acts + n).value);
    }
    if (forall k :: c.acts <= k < c.acts + n ==> texts(k).Err?) && texts(c.acts + n).Ok? {
      ReadAnyRecovers(ReadText, h, clock, texts, lookups, c, n, texts(c.acts + n).value);
    }
  }

  /**
   A one-command operation whose first `n` attempts fail with errors its
   policy retries (each rebind finding at once) returns the first reply that
   goes through, and the last call it made is that command on the element it
   ended up bound to.
   */
  lemma {:induction false} RecoversWith<T>(d: Discipline, cmd: Command, h: Handle, clock: Clock, replies: Replies<T>,
                                           lookups: Replies<ElemRef>, c: Cursor, n: nat, v: T)
    requires n < clock(h.timeout) && FailsRetriably(d, replies, c.acts, n)
    requires replies(c.acts + n) == Ok(v)
    requires d.rebinds ==> LookupsSucceed(lookups, c.finds, n)
    ensures var r := Perform(d, [cmd], h, clock, replies, lookups, c);
      && r.outcome == Value(v) && r.cursor.acts == c.acts + n + 1
      && |r.trace| > 0 && r.trace[|r.trace| - 1] == Act(r.handle.element, cmd)
  {
    var budget := clock(h.timeout);
    SingleAttemptsFail(d, cmd, replies, c.acts, n);
    assert Answered(replies, c.acts + n);
    RecoversAfterRetries(d, [cmd], h, budget, budget, replies, lookups, c, FirstFailures(n), v);
    SuccessIsLastAttempt(d, [cmd], h, budget, budget, replies, lookups, c);
    var r := Poll(d, [cmd], h, budget, budget, replies, lookups, c);
    assert r.trace[|r.trace| - 1] == r.trace[|r.trace| - 1..][0];
  }

  /**
   Under the stale-only policy, after `n` stale failures (each rebind
   finding at once) the first other failure is thrown at once and left in
   `lastException`.
   */
  lemma {:induction false} StaleRetryStops<T>(cmd: Command, h: Handle, clock: Clock, replies: Replies<T>,
                                              lookups: Replies<ElemRef>, c: Cursor, n: nat, e: Error)
    requires n < clock(h.timeout) && e != StaleElementReference
    requires forall k :: c.acts <= k < c.acts + n ==> replies(k) == Err(StaleElementReference)
    requires replies(c.acts + n) == Err(e)
    requires LookupsSucceed(lookups, c.finds, n)
    ensures var r := Perform(StaleRetry, [cmd], h, clock, replies, lookups, c);
      r.outcome == Raised(e) && r.handle.lastError == Some(e) && r.cursor == Cursor(c.acts + n + 1, c.finds + n)
  {
    var budget := clock(h.timeout);
    assert StaleElementReference in Ancestry(StaleElementReference) * StaleRetry.catches.kinds;
    assert FailsRetriably(StaleRetry, replies, c.acts, n);
    SingleAttemptsFail(StaleRetry, cmd, replies, c.acts, n);
    StopsAtPermanent(StaleRetry, [cmd], h, budget, budget, replies, lookups, c, FirstFailures(n), 0, e);
  }

  /** Under the stale-only policy, `n` stale failures in a row are `n` retried ones. */
  lemma {:induction false} StaleFailuresRetried<T>(replies: Replies<T>, from: nat, n: nat)
    requires forall k :: from <= k < from + n ==> replies(k) == Err(StaleElementReference)
    ensures FailsRetriably(StaleRetry, replies, from, n)
  {
    assert StaleElementReference in Ancestry(StaleElementReference) * StaleRetry.catches.kinds;
  }

  /**
   `GetAttribute` rebinds only on a stale reference: after `n` stale
   failures, each followed by a lookup that finds, the first other failure
   is thrown at once and left in `lastException`.
   */
  lemma {:induction false} GetAttributeStopsAtOtherFailure(name: string, h: Handle, clock: Clock, replies: Replies<Option<string>>,
                                                           lookups: Replies<ElemRef>, c: Cursor, n: nat, e: Error)
    requires n < clock(h.timeout) && e != StaleElementReference
    requires forall k :: c.acts <= k < c.acts + n ==> replies(k) == Err(StaleElementReference)
    requires replies(c.acts + n) == Err(e)
    requires LookupsSucceed(lookups, c.finds, n)
    ensures var r := GetAttribute(name, h, clock, replies, lookups, c);
      r.outcome == Raised(e) && r.handle.lastError == Some(e) && r.cursor == Cursor(c.acts + n + 1, c.finds + n)
  {
    StaleRetryStops(ReadAttribute(name), h, clock, replies, lookups, c, n, e);
  }

  /**
   `GetCssValue` and `Submit` share that policy: after `n` stale failures,
   each followed by a lookup that finds, the first other failure is thrown
   at once and left in `lastException`.
   */
  lemma {:induction false} StaleOnlyStopsAtOtherFailure(name: string, h: Handle, clock: Clock, values: Replies<string>,
                                                        submits: Replies<()>, lookups: Replies<ElemRef>, c: Cursor, n: nat, e: Error)
    requires n < clock(h.timeout) && e != StaleElementReference
    requires LookupsSucceed(lookups, c.finds, n)
    ensures (forall k :: c.acts <= k < c.acts + n ==> values(k) == Err(StaleElementReference)) && values(c.acts + n) == Err(e) ==>
      var r := GetCssValue(name, h, clock, values, lookups, c);
      r.outcome == Raised(e) && r.handle.lastError == Some(e) && r.cursor == Cursor(c.acts + n + 1, c.finds + n)
    ensures (forall k :: c.acts <= k < c.acts + n ==> submits(k) == Err(StaleElementReference)) && submits(c.acts + n) == Err(e) ==>
      var r := Submit(h, clock, submits, lookups, c);
      r.outcome == Raised(e) && r.handle.lastError == Some(e) && r.cursor == Cursor(c.acts + n + 1, c.finds + n)
  {
    if (forall k :: c.acts <= k < c.acts + n ==> values(k) == Err(StaleElementReference)) && values(c.acts + n) == Err(e) {
      StaleRetryStops(ReadCssValue(name), h, clock, values, lookups, c, n, e);
    }
    if (forall k :: c.acts <= k < c.acts + n ==> submits(k) == Err(StaleElementReference)) && submits(c.acts + n) == Err(e) {
      StaleRetryStops(SubmitForm, h, clock, submits, lookups, c, n, e);
    }
  }

  /**
   `GetAttribute`, `GetCssValue` and `Submit` get through stale references:
   after `n` stale failures, each followed by a lookup that finds, the first
   reply that goes through is returned, and the last call made is the
   attribute read, the property read or the submit on the rebound element.
   */
  lemma {:induction false} StaleOnlyRecovers(name: string, h: Handle, clock: Clock, attributes: Replies<Option<string>>,
                                             values: Replies<string>, submits: Replies<()>, lookups: Replies<ElemRef>, c: Cursor, n: nat)
    requires n < clock(h.timeout)
    requires LookupsSucceed(lookups, c.finds, n)
    ensures (forall k :: c.acts <= k < c.acts + n ==> attributes(k) == Err(StaleElementReference)) && attributes(c.acts + n).Ok? ==>
      var r := GetAttribute(name, h, clock, attributes, lookups, c);
      && r.outcome == Value(attributes(c.acts + n).value) && r.cursor.acts == c.acts + n + 1
      && |r.trace| > 0 && r.trace[|r.trace| - 1] == Act(r.handle.element, ReadAttribute(name))
    ensures (forall k :: c.acts <= k < c.acts + n ==> values(k) == Err(StaleElementReference)) && values(c.acts + n).Ok? ==>
      var r := GetCssValue(name, h, clock, values, lookups, c);
      && r.outcome == Value(values(c.acts + n).value) && r.cursor.acts == c.acts + n + 1
      && |r.trace| > 0 && r.trace[|r.trace| - 1] == Act(r.handle.element, ReadCssValue(name))
    ensures (forall k :: c.acts <= k < c.acts + n ==> submits(k) == Err(StaleElementReference)) && submits(c.acts + n).Ok? ==>
      var r := Submit(h, clock, submits, lookups, c);
      && r.outcome.Value? && r.cursor.acts == c.acts + n + 1
      && |r.trace| > 0 && r.trace[|r.trace| - 1] == Act(r.handle.element, SubmitForm)
  {
    if (forall k :: c.acts <= k < c.acts + n ==> attributes(k) == Err(StaleElementReference)) && attributes(c.acts + n).Ok? {
      StaleFailuresRetried(attributes, c.acts, n);
      RecoversWith(StaleRetry, ReadAttribute(name), h, clock, attributes, lookups, c, n, attributes(c.acts + n).value);
    }
    if (forall k :: c.acts <= k < c.acts + n ==> values(k) == Err(StaleElementReference)) && values(c.acts + n).Ok? {
      StaleFailuresRetried(values, c.acts, n);
      RecoversWith(StaleRetry, ReadCssValue(name), h, clock, values, lookups, c, n, values(c.acts + n).value);
    }
    if (forall k :: c.acts <= k < c.acts + n ==> submits(k) == Err(StaleElementReference)) && submits(c.acts + n).Ok? {
      StaleFailuresRetried(submits, c.acts, n);
      RecoversWith(StaleRetry, SubmitForm, h, clock, submits, lookups, c, n, submits(c.acts + n).value);
    }
  }

  /** The run ended normally at reply `acts - 1`, its last call being `script` on the element it was bound to. */
  ghost predicate RanScript(r: Run<()>, script: string, acts: nat) {
    && r.outcome == Value(()) && r.cursor.acts == acts
    && |r.trace| > 0 && r.trace[|r.trace| - 1] == Act(r.handle.element, Execute(script))
  }

  /**
   `ExecuteJS` rebinds after any failure, so the script runs as soon as an
   attempt succeeds within the budget, and that run is the last call made.
   */
  lemma {:induction false} ExecuteJSRecovers(script: string, h: Handle, clock: Clock, replies: Replies<()>,
                                             lookups: Replies<ElemRef>, c: Cursor, n: nat)
    requires n < clock(h.timeout)
    requires forall k :: c.acts <= k < c.acts + n ==> replies(k).Err?
    requires replies(c.acts + n) == Ok(()) && LookupsSucceed(lookups, c.finds, n)
    ensures RanScript(ExecuteJS(script, h, clock, replies, lookups, c), script, c.acts + n + 1)
  {
    assert FailsRetriably(ScriptRetry, replies, c.acts, n);
    RecoversWith(ScriptRetry, Execute(script), h, clock, replies, lookups, c, n, ());
  }

  /** `ScrollIntoView` runs its script, with the alignment, under the conditions in which `ExecuteJS` recovers. */
  lemma {:induction false} ScrollIntoViewRecovers(alignToTop: bool, h: Handle, clock: Clock,
                                                  replies: Replies<()>, lookups: Replies<ElemRef>, c: Cursor, n: nat)
    requires n < clock(h.timeout)
    requires forall k :: c.acts <= k < c.acts + n ==> replies(k).Err?
    requires replies(c.acts + n) == Ok(()) && LookupsSucceed(lookups, c.finds, n)
    ensures RanScript(ScrollIntoView(alignToTop, h, clock, replies, lookups, c), ScrollIntoViewScript(alignToTop), c.acts + n + 1)
  {
    ExecuteJSRecovers(ScrollIntoViewScript(alignToTop), h, clock, replies, lookups, c, n);
  }

  /** `ScrollBy` runs its script, with the offsets, under the conditions in which `ExecuteJS` recovers. */
  lemma {:induction false} ScrollByRecovers(x: int, y: int, h: Handle, clock: Clock,
                                            replies: Replies<()>, lookups: Replies<ElemRef>, c: Cursor, n: nat)
    requires n < clock(h.timeout)
    requires forall k :: c.acts <= k < c.acts + n ==> replies(k).Err?
    requires replies(c.acts + n) == Ok(()) && LookupsSucceed(lookups, c.finds, n)
    ensures RanScript(ScrollBy(x, y, h, clock, replies, lookups, c), ScrollByScript(x, y), c.acts + n + 1)
  {
    ExecuteJSRecovers(ScrollByScript(x, y), h, clock, replies, lookups, c, n);
  }

  /** `JSClick` runs the click script under the conditions in which `ExecuteJS` recovers. */
  lemma {:induction false} JSClickRecovers(h: Handle, clock: Clock, replies: Replies<()>, lookups: Replies<ElemRef>, c: Cursor, n: nat)
    requires n < clock(h.timeout)
    requires forall k :: c.acts <= k < c.acts + n ==> replies(k).Err?
    requires replies(c.acts + n) == Ok(()) && LookupsSucceed(lookups, c.finds, n)
    ensures RanScript(JSClick(h, clock, replies, lookups, c), ClickScript, c.acts + n + 1)
  {
    ExecuteJSRecovers(ClickScript, h, clock, replies, lookups, c, n);
  }

  /**
   The mouse-event helpers dispatch their event: under the conditions in
   which `ExecuteJS` recovers, each ends normally with the dispatch of the
   named event (`click` and `mouseover` for the two fixed ones) as the last call.
   */
  lemma {:induction false} MouseEventsRecover(kind: string, h: Handle, clock: Clock,
                                              replies: Replies<()>, lookups: Replies<ElemRef>, c: Cursor, n: nat)
    requires n < clock(h.timeout)
    requires forall k :: c.acts <= k < c.acts + n ==> replies(k).Err?
    requires replies(c.acts + n) == Ok(()) && LookupsSucceed(lookups, c.finds, n)
    ensures RanScript(ExecuteMouseEvent(kind, h, clock, replies, lookups, c), MouseEventScript(kind), c.acts + n + 1)
    ensures RanScript(JSMouseClick(h, clock, replies, lookups, c), MouseEventScript("click"), c.acts + n + 1)
    ensures RanScript(JSMouseOver(h, clock, replies, lookups, c), MouseEventScript("mouseover"), c.acts + n + 1)
  {
    ExecuteJSRecovers(MouseEventScript(kind), h, clock, replies, lookups, c, n);
    ExecuteJSRecovers(MouseEventScript("click"), h, clock, replies, lookups, c, n);
    ExecuteJSRecovers(MouseEventScript("mouseover"), h, clock, replies, lookups, c, n);
  }

  /**
   A `Click` whose every attempt within the budget fails transiently (each
   failure followed by a lookup that succeeds) returns normally, leaving
   `lastException` as it was; with no budget it sends nothing at all.
   */
  lemma {:induction false} ClickFallsThrough(h: Handle, clock: Clock, replies: Replies<()>, lookups: Replies<ElemRef>, c: Cursor)
    requires FailsRetriably(ClickRetry, replies, c.acts, clock(h.timeout))
    requires LookupsSucceed(lookups, c.finds, clock(h.timeout))
    ensures var r := Click(h, clock, replies, lookups, c);
      && r.outcome == Lapsed && r.handle.lastError == h.lastError
      && r.cursor.acts == c.acts + clock(h.timeout)
      && (clock(h.timeout) == 0 ==> r.trace == [] && r.cursor == c)
  {
    var budget := clock(h.timeout);
    SingleAttemptsFail(ClickRetry, ClickOn, replies, c.acts, budget);
    ExhaustsBudget(ClickRetry, [ClickOn], h, budget, budget, replies, lookups, c, FirstFailures(budget));
  }

  /**
   `Clear` whose every attempt fails transiently throws whatever
   `lastException` held before the call: transient failures are never
   recorded.
   */
  lemma {:induction false} ClearRethrowsPrevious(h: Handle, clock: Clock, replies: Replies<()>, lookups: Replies<ElemRef>, c: Cursor)
    requires FailsRetriably(InputRetry, replies, c.acts, clock(h.timeout))
    requires LookupsSucceed(lookups, c.finds, clock(h.timeout))
    ensures var r := Clear(h, clock, replies, lookups, c);
      r.outcome == Raised(Thrown(h.lastError)) && r.handle.lastError == h.lastError
  {
    var budget := clock(h.timeout);
    SingleAttemptsFail(InputRetry, ClearText, replies, c.acts, budget);
    ExhaustsBudget(InputRetry, [ClearText], h, budget, budget, replies, lookups, c, FirstFailures(budget));
  }

  /**
   `Clear` catches invalid-state failures, so it also retries a click
   interception, which derives from that kind: an intercepted first attempt
   followed by a lookup that finds and an attempt that goes through ends
   normally.
   */
  lemma {:induction false} ClearRetriesClickIntercepted(h: Handle, clock: Clock, replies: Replies<()>, lookups: Replies<ElemRef>, c: Cursor)
    requires clock(h.timeout) > 1
    requires replies(c.acts) == Err(ElementClickIntercepted) && replies(c.acts + 1) == Ok(())
    requires lookups(c.finds).Ok?
    ensures InputRetry.Retries(ElementClickIntercepted) && !StaleRetry.Retries(ElementClickIntercepted)
    ensures var r := Clear(h, clock, replies, lookups, c);
      r.outcome == Value(()) && r.cursor.acts == c.acts + 2
  {
    var budget := clock(h.timeout);
    assert InvalidElementState in Ancestry(ElementClickIntercepted) * InputRetry.catches.kinds;
    assert Retried(InputRetry, replies, c.acts);
    SingleAttemptsFail(InputRetry, ClearText, replies, c.acts, 1);
    assert Answered(replies, c.acts + 1);
    assert Answered(lookups, c.finds);
    RecoversAfterRetries(InputRetry, [ClearText], h, budget, budget, replies, lookups, c, FirstFailures(1), ());
  }

  /**
   A `SendKeys` that succeeds ends with one complete attempt on the element
   it is bound to: the select-all chord and then the text when the old text
   is to go, the text alone otherwise.
   */
  lemma {:induction false} SendKeysOrder(keys: string, deletePrevText: bool, h: Handle, clock: Clock,
                                         replies: Replies<()>, lookups: Replies<ElemRef>, c: Cursor)
    ensures var r := SendKeys(keys, deletePrevText, h, clock, replies, lookups, c);
      var el := r.handle.element;
      var last := if deletePrevText then [Act(el, SendText(SelectAll)), Act(el, SendText(keys))] else [Act(el, SendText(keys))];
      r.outcome.Value? ==> |last| <= |r.trace| && r.trace[|r.trace| - |last|..] == last
  {
    var budget := clock(h.timeout);
    var cmds := Keystrokes(keys, deletePrevText);
    SuccessIsLastAttempt(InputRetry, cmds, h, budget, budget, replies, lookups, c);
    var r := Poll(InputRetry, cmds, h, budget, budget, replies, lookups, c);
    var el := r.handle.element;
    assert Attempted(el, cmds) == if deletePrevText then [Act(el, SendText(SelectAll)), Act(el, SendText(keys))] else [Act(el, SendText(keys))];
  }

  /**
   Self-healing `SendKeys`: after attempts that fail transiently at any of
   their keystrokes, each followed by a lookup that finds, an attempt whose
   keystrokes all go through ends normally within the budget.
   */
  lemma {:induction false} SendKeysRecovers(keys: string, deletePrevText: bool, h: Handle, clock: Clock,
                                            replies: Replies<()>, lookups: Replies<ElemRef>, c: Cursor, js: seq<nat>)
    requires |js| < clock(h.timeout)
    requires AttemptsFail(InputRetry, Keystrokes(keys, deletePrevText), replies, c.acts, js)
    requires Succeeds(Keystrokes(keys, deletePrevText), replies, Start(c.acts, js, |js|))
    requires LookupsSucceed(lookups, c.finds, |js|)
    ensures var r := SendKeys(keys, deletePrevText, h, clock, replies, lookups, c);
      r.outcome == Value(()) && r.cursor.acts == Start(c.acts, js, |js|) + |Keystrokes(keys, deletePrevText)|
  {
    var budget := clock(h.timeout);
    var cmds := Keystrokes(keys, deletePrevText);
    var at := Start(c.acts, js, |js|);
    assert Answered(replies, at + |cmds| - 1);
    match replies(at + |cmds| - 1) {
      case Ok(()) =>
    }
    RecoversAfterRetries(InputRetry, cmds, h, budget, budget, replies, lookups, c, js, ());
  }

  /**
   `SendKeys` rethrows at once, and records, the first failure it does not
   catch, whether it hits the select-all chord or the text itself.
   */
  lemma {:induction false} SendKeysStopsAtOtherFailure(keys: string, deletePrevText: bool, h: Handle, clock: Clock,
                                                       replies: Replies<()>, lookups: Replies<ElemRef>, c: Cursor,
                                                       js: seq<nat>, j: nat, e: Error)
    requires |js| < clock(h.timeout)
    requires AttemptsFail(InputRetry, Keystrokes(keys, deletePrevText), replies, c.acts, js)
    requires LookupsSucceed(lookups, c.finds, |js|)
    requires j < |Keystrokes(keys, deletePrevText)| && FailsAt(replies, Start(c.acts, js, |js|), j)
    requires replies(Start(c.acts, js, |js|) + j) == Err(e) && !InputRetry.Retries(e)
    ensures var r := SendKeys(keys, deletePrevText, h, clock, replies, lookups, c);
      && r.outcome == Raised(e) && r.handle.lastError == Some(e)
      && r.cursor == Cursor(Start(c.acts, js, |js|) + j + 1, c.finds + |js|)
  {
    var budget := clock(h.timeout);
    StopsAtPermanent(InputRetry, Keystrokes(keys, deletePrevText), h, budget, budget, replies, lookups, c, js, j, e);
  }

  /**
   The null throw: on a handle whose lookup succeeded at once,
   `lastException` is still null, so a `Clear` whose every attempt fails
   transiently throws a null reference instead of the failure it saw.
   */
  lemma {:induction false} ClearThrowsNull(h: Handle, clock: Clock, replies: Replies<()>, lookups: Replies<ElemRef>, c: Cursor)
    requires h.lastError.None? && clock(h.timeout) > 0
    requires FailsRetriably(InputRetry, replies, c.acts, clock(h.timeout))
    requires LookupsSucceed(lookups, c.finds, clock(h.timeout))
    ensures var r := Clear(h, clock, replies, lookups, c);
      && r.outcome == Raised(NullReference(NullMessage))
      && replies(c.acts + clock(h.timeout) - 1).Err?
      && r.outcome != Raised(replies(c.acts + clock(h.timeout) - 1).error)
  {
    ClearRethrowsPrevious(h, clock, replies, lookups, c);
    assert Retried(InputRetry, replies, c.acts + clock(h.timeout) - 1);
  }

  /** The input discipline with transient failures recorded, so that the deadline rethrows the last one. */
  const InputRetryReported := InputRetry.(notesRetried := true)

  /** `SendKeys` with the transient failures recorded. */
  function SendKeysReported(keys: string, deletePrevText: bool, h: Handle, clock: Clock,
                            replies: Replies<()>, lookups: Replies<ElemRef>, c: Cursor): (r: Run<()>)
    ensures Conforms(InputRetryReported, Keystrokes(keys, deletePrevText), h, c, replies, lookups, r)
  {
    Perform(InputRetryReported, Keystrokes(keys, deletePrevText), h, clock, replies, lookups, c)
  }

  /** `Clear` with the transient failures recorded. */
  function ClearReported(h: Handle, clock: Clock, replies: Replies<()>, lookups: Replies<ElemRef>, c: Cursor): (r: Run<()>)
    ensures Conforms(InputRetryReported, [ClearText], h, c, replies, lookups, r)
  {
    Perform(InputRetryReported, [ClearText], h, clock, replies, lookups, c)
  }

  /** With failures recorded, a `Clear` that runs out of time throws the last failure it saw, whatever the handle held. */
  lemma {:induction false} ClearReportedRaisesLastFailure(h: Handle, clock: Clock, replies: Replies<()>, lookups: Replies<ElemRef>, c: Cursor)
    requires clock(h.timeout) > 0
    requires FailsRetriably(InputRetryReported, replies, c.acts, clock(h.timeout))
    requires LookupsSucceed(lookups, c.finds, clock(h.timeout))
    ensures var r := ClearReported(h, clock, replies, lookups, c);
      && replies(c.acts + clock(h.timeout) - 1).Err?
      && r.outcome == Raised(replies(c.acts + clock(h.timeout) - 1).error)
      && r.handle.lastError == Some(replies(c.acts + clock(h.timeout) - 1).error)
  {
    var budget := clock(h.timeout);
    SingleAttemptsFail(InputRetryReported, ClearText, replies, c.acts, budget);
    ExhaustsBudget(InputRetryReported, [ClearText], h, budget, budget, replies, lookups, c, FirstFailures(budget));
    assert Retried(InputRetryReported, replies, c.acts + budget - 1);
  }

  /**
   The same for `SendKeys`, whichever keystroke each attempt fails at: the
   deadline throws the failure that ended the last attempt.
   */
  lemma {:induction false} SendKeysReportedRaisesLastFailure(keys: string, deletePrevText: bool, h: Handle, clock: Clock,
                                                             replies: Replies<()>, lookups: Replies<ElemRef>, c: Cursor, js: seq<nat>)
    requires |js| == clock(h.timeout) > 0
    requires AttemptsFail(InputRetryReported, Keystrokes(keys, deletePrevText), replies, c.acts, js)
    requires LookupsSucceed(lookups, c.finds, |js|)
    ensures var r := SendKeysReported(keys, deletePrevText, h, clock, replies, lookups, c);
      var last := replies(Start(c.acts, js, |js|) - 1);
      && last.Err?
      && r.outcome == Raised(last.error) && r.handle.lastError == Some(last.error)
  {
    var budget := clock(h.timeout);
    ExhaustsBudget(InputRetryReported, Keystrokes(keys, deletePrevText), h, budget, budget, replies, lookups, c, js);
  }
}

=== FILE: engine.dfy ===
/**
 The state of an element handle and the deadline loop its operations share.

 A handle keeps the locator it was created with, its timeout, the element
 reference the last successful lookup returned and the last exception it
 recorded.  Every operation runs a deadline loop (`Poll`) around its remote
 command; what happens when the command fails depends on the operation's
 `Discipline`: retry on the same reference, rebind through `InitElement`
 and retry, or rethrow at once.
 */
module Engine {
  import opened Remote

  datatype Handle = Handle(locator: Locator, timeout: int, element: ElemRef, lastError: Option<Error>)

  /**
   How an operation ended: with a value, by raising, or (only `Click`) by
   returning normally once the deadline passed without a success.
   */
  datatype Outcome<T> = Value(value: T) | Raised(error: Error) | Lapsed

  datatype Run<T> = Run(outcome: Outcome<T>, handle: Handle, cursor: Cursor, trace: seq<Call>)

  /** Every call in the trace is a lookup of `locator`. */
  ghost predicate LooksUpOnly(trace: seq<Call>, locator: Locator) {
    forall call :: call in trace ==> call == Find(locator)
  }

  /** Every lookup in the trace uses `locator`. */
  ghost predicate LooksUpWith(trace: seq<Call>, locator: Locator) {
    forall call :: call in trace && call.Find? ==> call.locator == locator
  }

  /** Every call in the trace is a command on `target`. */
  ghost predicate ActsOnlyOn(trace: seq<Call>, target: ElemRef) {
    forall call :: call in trace ==> call.Act? && call.target == target
  }

  /** Every command in the trace is one of `cmds`. */
  ghost predicate Sends(trace: seq<Call>, cmds: seq<Command>) {
    forall call :: call in trace && call.Act? ==> call.command in cmds
  }

  /** Which failures a catch clause sends round the loop again: all of them, or those of the listed kinds and the kinds derived from them. */
  datatype Catch = Every | Only(kinds: set<Error>)

  /**
   The catch clause of an operation family, as data: which failures it
   retries, whether a retried failure is followed by `InitElement`, which
   failures it stores in `lastException`, and whether the loop falls
   through without an exception at the deadline.
   */
  datatype Discipline = Discipline(catches: Catch, rebinds: bool, notesRetried: bool, notesPermanent: bool, silent: bool)
  {
    /** Whether a failed command leads to another iteration rather than a rethrow. */
    predicate Retries(e: Error) {
      catches.Every? || Ancestry(e) * catches.kinds != {}
    }

    /** `lastException` after the command failed with `e`. */
    function Note(last: Option<Error>, e: Error): Option<Error> {
      if (if Retries(e) then notesRetried else notesPermanent) then Some(e) else last
    }
  }

  /** `Displayed`, `Enabled`, `Text`: catch everything, record it, keep the cached element. */
  const ReadAny := Discipline(Every, false, true, true, false)

  /** `Click`: rebind on a stale reference, an invisible element or an intercepted click; record nothing; fall through at the deadline. */
  const ClickRetry := Discipline(Only({StaleElementReference, ElementNotVisible, ElementClickIntercepted}), true, false, false, true)

  /**
   `SendKeys`, `Clear`: rebind on a stale reference, an invisible element or
   an invalid element state (which takes in every not-interactable failure,
   an intercepted click among them); record only what is rethrown.
   */
  const InputRetry := Discipline(Only({StaleElementReference, ElementNotVisible, InvalidElementState}), true, false, true, false)

  /** `GetAttribute`, `GetCssValue`, `Submit`: record every failure, rebind only on a stale reference. */
  const StaleRetry := Discipline(Only({StaleElementReference}), true, true, true, false)

  /** `ExecuteJS`: record every failure and rebind on every failure. */
  const ScriptRetry := Discipline(Every, true, true, true, false)

  datatype Binding = Binding(found: Result<ElemRef>, lastError: Option<Error>, cursor: Cursor, trace: seq<Call>)

  /**
   `InitElement`: look the locator up until a lookup succeeds or the budget
   is spent.  On exhaustion the last recorded exception is thrown, which is
   whatever the handle held before when the budget was zero.
   */
  function InitElement(locator: Locator, last: Option<Error>, fuel: nat, lookups: Replies<ElemRef>, c: Cursor): (r: Binding)
    ensures r.cursor == Cursor(c.acts, c.finds + |r.trace|) && |r.trace| <= fuel
    ensures r.found.Err? ==> r.found.error == Thrown(r.lastError)
    decreases fuel
  {
    if fuel == 0 then Binding(Err(Thrown(last)), last, c, [])
    else
      var reply := lookups(c.finds);
      var c1 := c.(finds := c.finds + 1);
      match reply
      case Ok(_) => Binding(reply, last, c1, [Find(locator)])
      case Err(e) =>
        var r := InitElement(locator, Some(e), fuel - 1, lookups, c1);
        r.(trace := [Find(locator)] + r.trace)
  }

  /** The calls of an attempt in which every command went through. */
  function Attempted(target: ElemRef, cmds: seq<Command>): (t: seq<Call>)
    ensures |t| == |cmds| && forall k :: 0 <= k < |cmds| ==> t[k] == Act(target, cmds[k])
  {
    seq(|cmds|, k requires 0 <= k < |cmds| => Act(target, cmds[k]))
  }

  datatype Attempt<T> = Attempt(result: Result<T>, acts: nat, trace: seq<Call>)

  /** One pass through the `try` block: the commands in order, up to the first that fails. */
  function Issue<T>(target: ElemRef, cmds: seq<Command>, replies: Replies<T>, acts: nat): (r: Attempt<T>)
    requires |cmds| > 0
    ensures acts < r.acts <= acts + |cmds| && |r.trace| == r.acts - acts
    ensures r.result == replies(r.acts - 1)
    decreases |cmds|
  {
    var reply := replies(acts);
    if reply.Err? || |cmds| == 1 then Attempt(reply, acts + 1, [Act(target, cmds[0])])
    else
      var r := Issue(target, cmds[1..], replies, acts + 1);
      r.(trace := [Act(target, cmds[0])] + r.trace)
  }

  /** What one iteration of a deadline loop leaves behind. */
  datatype Step<T> =
    | Done(outcome: Outcome<T>, handle: Handle, cursor: Cursor, trace: seq<Call>)
    | Again(handle: Handle, cursor: Cursor, trace: seq<Call>)

  /**
   One iteration of the loop body: the attempt, and on failure the catch
   clause of discipline `d` (record, classify, rebind).
   */
  function Iterate<T>(d: Discipline, cmds: seq<Command>, h: Handle, bindFuel: nat,
                      replies: Replies<T>, lookups: Replies<ElemRef>, c: Cursor): (s: Step<T>)
    requires |cmds| > 0
    ensures s.handle.locator == h.locator && s.handle.timeout == h.timeout
    ensures c.acts < s.cursor.acts && c.finds <= s.cursor.finds
  {
    var a := Issue(h.element, cmds, replies, c.acts);
    var c1 := c.(acts := a.acts);
    if a.result.Ok? then Done(Value(a.result.value), h, c1, a.trace)
    else
      var e := a.result.error;
      var h1 := h.(lastError := d.Note(h.lastError, e));
      if !d.Retries(e) then Done(Raised(e), h1, c1, a.trace)
      else if !d.rebinds then Again(h1, c1, a.trace)
      else
        var b := InitElement(h1.locator, h1.lastError, bindFuel, lookups, c1);
        match b.found
        case Err(lookupError) => Done(Raised(lookupError), h1.(lastError := b.lastError), b.cursor, a.trace + b.trace)
        case Ok(el) => Again(h1.(element := el, lastError := b.lastError), b.cursor, a.trace + b.trace)
  }

  /**
   The deadline loop shared by every element operation: `fuel` iterations of
   the operation's own loop, `bindFuel` iterations for each nested
   `InitElement`.
   */
  function Poll<T>(d: Discipline, cmds: seq<Command>, h: Handle, fuel: nat, bindFuel: nat,
                   replies: Replies<T>, lookups: Replies<ElemRef>, c: Cursor): (r: Run<T>)
    requires |cmds| > 0
    ensures c.acts <= r.cursor.acts && c.finds <= r.cursor.finds
    ensures fuel > 0 ==> c.acts < r.cursor.acts
    decreases fuel
  {
    if fuel == 0 then Run(if d.silent then Lapsed else Raised(Thrown(h.lastError)), h, c, [])
    else
      match Iterate(d, cmds, h, bindFuel, replies, lookups, c)
      case Done(outcome, h1, c1, t) => Run(outcome, h1, c1, t)
      case Again(h1, c1, t) =>
        var r := Poll(d, cmds, h1, fuel - 1, bindFuel, replies, lookups, c1);
        r.(trace := t + r.trace)
  }
}

=== FILE: engine_laws.dfy ===
/**
 What the deadline loop of `Engine` does, stated once for every discipline:
 recovery from retried failures, rethrow of the first failure the discipline
 does not retry, the end of the budget, and a rebind that fails.
 */
module EngineLaws {
  import opened Remote
  import opened Engine
  import opened LoopLaws

  /** Reply `k` went through. */
  ghost predicate Answered<T>(replies: Replies<T>, k: nat) {
    replies(k).Ok?
  }

  /** Reply `k` is a failure that `d` retries. */
  ghost predicate Retried<T>(d: Discipline, replies: Replies<T>, k: nat) {
    replies(k).Err? && d.Retries(replies(k).error)
  }

  /** Replies `from .. from + n - 1` all fail with errors `d` retries. */
  ghost predicate FailsRetriably<T>(d: Discipline, replies: Replies<T>, from: nat, n: nat) {
    forall k {:trigger Retried(d, replies, k)} :: from <= k < from + n ==> Retried(d, replies, k)
  }

  /** Lookups `from .. from + n - 1` all find an element. */
  ghost predicate LookupsSucceed(lookups: Replies<ElemRef>, from: nat, n: nat) {
    forall k {:trigger Answered(lookups, k)} :: from <= k < from + n ==> Answered(lookups, k)
  }

  /** Lookup `k` found nothing. */
  ghost predicate Missed(lookups: Replies<ElemRef>, k: nat) {
    lookups(k).Err?
  }

  /** Lookups `from .. from + n - 1` all find nothing. */
  ghost predicate LookupsFail(lookups: Replies<ElemRef>, from: nat, n: nat) {
    forall k {:trigger Missed(lookups, k)} :: from <= k < from + n ==> Missed(lookups, k)
  }

  /** The attempt whose first command takes reply `from` fails at its `j`-th command: the ones before it went through. */
  ghost predicate FailsAt<T>(replies: Replies<T>, from: nat, j: nat) {
    && (forall k {:trigger Answered(replies, k)} :: from <= k < from + j ==> Answered(replies, k))
    && replies(from + j).Err?
  }

  /** Replies `from .. from + |cmds| - 1` all succeed: a whole attempt of `cmds` goes through. */
  ghost predicate Succeeds<T>(cmds: seq<Command>, replies: Replies<T>, from: nat) {
    forall k {:trigger Answered(replies, k)} :: from <= k < from + |cmds| ==> Answered(replies, k)
  }

  /**
   Where the `i`-th of several attempts starts when the first starts at
   reply `from` and the earlier ones failed at positions `js`: each spent its
   failing command and those before it.
   */
  function Start(from: nat, js: seq<nat>, i: nat): (at: nat)
    requires i <= |js|
    ensures at >= from + i
    decreases i
  {
    if i == 0 then from else Start(from, js, i - 1) + js[i - 1] + 1
  }

  /** An attempt of `cmds` whose first command takes reply `at` fails at its `j`-th command with an error `d` retries. */
  ghost predicate FailedAttempt<T>(d: Discipline, cmds: seq<Command>, replies: Replies<T>, at: nat, j: nat) {
    j < |cmds| && FailsAt(replies, at, j) && Retried(d, replies, at + j)
  }

  /**
   Consecutive attempts of `cmds`, the first taking reply `from`, the i-th
   failing at its `js[i]`-th command with an error `d` retries.
   */
  ghost predicate AttemptsFail<T>(d: Discipline, cmds: seq<Command>, replies: Replies<T>, from: nat, js: seq<nat>) {
    forall i {:trigger FailedAttempt(d, cmds, replies, Start(from, js, i), js[i])} ::
      0 <= i < |js| ==> FailedAttempt(d, cmds, replies, Start(from, js, i), js[i])
  }

  /** Counting from the second attempt on: the first one spent `js[0] + 1` replies. */
  lemma {:induction false} StartShift(from: nat, js: seq<nat>, i: nat)
    requires i < |js|
    ensures Start(from, js, i + 1) == Start(from + js[0] + 1, js[1..], i)
    decreases i
  {
    if i > 0 {
      StartShift(from, js, i - 1);
    }
  }

  /** The first of several failed attempts, and the ones after it. */
  lemma {:induction false} AttemptsFailFirst<T>(d: Discipline, cmds: seq<Command>, replies: Replies<T>, from: nat, js: seq<nat>)
    requires |js| > 0 && AttemptsFail(d, cmds, replies, from, js)
    ensures FailedAttempt(d, cmds, replies, from, js[0])
    ensures AttemptsFail(d, cmds, replies, from + js[0] + 1, js[1..])
    ensures Start(from, js, |js|) == Start(from + js[0] + 1, js[1..], |js| - 1)
  {
    assert FailedAttempt(d, cmds, replies, Start(from, js, 0), js[0]);
    var next, rest := from + js[0] + 1, js[1..];
    forall i {:trigger FailedAttempt(d, cmds, replies, Start(next, rest, i), rest[i])} | 0 <= i < |rest|
      ensures FailedAttempt(d, cmds, replies, Start(next, rest, i), rest[i])
    {
      StartShift(from, js, i);
      assert FailedAttempt(d, cmds, replies, Start(from, js, i + 1), js[i + 1]);
    }
    StartShift(from, js, |js| - 1);
  }

  /** A failed attempt followed by failed attempts. */
  lemma {:induction false} AttemptsFailCons<T>(d: Discipline, cmds: seq<Command>, replies: Replies<T>, from: nat, j: nat, js: seq<nat>)
    requires FailedAttempt(d, cmds, replies, from, j) && AttemptsFail(d, cmds, replies, from + j + 1, js)
    ensures AttemptsFail(d, cmds, replies, from, [j] + js)
  {
    var all := [j] + js;
    assert all[1..] == js;
    forall i {:trigger FailedAttempt(d, cmds, replies, Start(from, all, i), all[i])} | 0 <= i < |all|
      ensures FailedAttempt(d, cmds, replies, Start(from, all, i), all[i])
    {
      if i > 0 {
        StartShift(from, all, i - 1);
        assert FailedAttempt(d, cmds, replies, Start(from + j + 1, js, i - 1), js[i - 1]);
      }
    }
  }

  /** The failure that ends the last of several failed attempts is the last reply they spent. */
  lemma {:induction false} AttemptsFailLast<T>(d: Discipline, cmds: seq<Command>, replies: Replies<T>, from: nat, js: seq<nat>)
    requires |js| > 0 && AttemptsFail(d, cmds, replies, from, js)
    ensures var k := Start(from, js, |js|) - 1; replies(k).Err? && d.Retries(replies(k).error)
  {
    assert FailedAttempt(d, cmds, replies, Start(from, js, |js| - 1), js[|js| - 1]);
  }

  /** The first of several lookups that find, and the ones after it. */
  lemma {:induction false} LookupsSucceedFirst(lookups: Replies<ElemRef>, from: nat, n: nat)
    requires n > 0 && LookupsSucceed(lookups, from, n)
    ensures lookups(from).Ok? && LookupsSucceed(lookups, from + 1, n - 1)
  {
    assert Answered(lookups, from);
  }

  /** `n` attempts that each fail at their first command. */
  function FirstFailures(n: nat): (js: seq<nat>)
    ensures |js| == n && forall i :: 0 <= i < n ==> js[i] == 0
  {
    seq(n, _ => 0)
  }

  /** Attempts that each fail at their first command spend one reply each. */
  lemma {:induction false} StartOfFirstFailures(from: nat, n: nat, i: nat)
    requires i <= n
    ensures Start(from, FirstFailures(n), i) == from + i
    decreases i
  {
    if i > 0 {
      StartOfFirstFailures(from, n, i - 1);
    }
  }

  /** For a one-command operation, `n` retried failures in a row are `n` attempts failing at their only command. */
  lemma {:induction false} SingleAttemptsFail<T>(d: Discipline, cmd: Command, replies: Replies<T>, from: nat, n: nat)
    requires FailsRetriably(d, replies, from, n)
    ensures AttemptsFail(d, [cmd], replies, from, FirstFailures(n))
    ensures Start(from, FirstFailures(n), n) == from + n
  {
    forall i {:trigger FailedAttempt(d, [cmd], replies, Start(from, FirstFailures(n), i), FirstFailures(n)[i])} | 0 <= i < n
      ensures FailedAttempt(d, [cmd], replies, Start(from, FirstFailures(n), i), FirstFailures(n)[i])
    {
      StartOfFirstFailures(from, n, i);
      assert Retried(d, replies, from + i + 0);
    }
    StartOfFirstFailures(from, n, n);
  }

  /** `InitElement` looks up the locator it was given and nothing else. */
  lemma {:induction false} InitElementLooksUp(locator: Locator, last: Option<Error>, fuel: nat, lookups: Replies<ElemRef>, c: Cursor)
    ensures LooksUpOnly(InitElement(locator, last, fuel, lookups, c).trace, locator)
    decreases fuel
  {
    if fuel > 0 && lookups(c.finds).Err? {
      InitElementLooksUp(locator, Some(lookups(c.finds).error), fuel - 1, lookups, c.(finds := c.finds + 1));
    }
  }

  /**
   A rebind that succeeds binds to what its last lookup found, every lookup
   before that one failed, and `lastException` holds the last of those
   failures (or what it held before when the first lookup succeeded).
   */
  lemma {:induction false} InitElementFinds(locator: Locator, last: Option<Error>, fuel: nat, lookups: Replies<ElemRef>, c: Cursor)
    ensures var r := InitElement(locator, last, fuel, lookups, c);
      r.found.Ok? ==>
        && |r.trace| > 0 && lookups(r.cursor.finds - 1) == r.found
        && (forall k :: c.finds <= k < r.cursor.finds - 1 ==> lookups(k).Err?)
        && r.lastError == (if |r.trace| == 1 then last else Some(lookups(r.cursor.finds - 2).error))
    decreases fuel
  {
    if fuel > 0 && lookups(c.finds).Err? {
      InitElementFinds(locator, Some(lookups(c.finds).error), fuel - 1, lookups, c.(finds := c.finds + 1));
    }
  }

  /**
   A rebind that fails has spent its whole budget on failed lookups and
   throws the last lookup error, or what the handle held before when the
   budget was zero.
   */
  lemma {:induction false} InitElementExhausts(locator: Locator, last: Option<Error>, fuel: nat, lookups: Replies<ElemRef>, c: Cursor)
    ensures var r := InitElement(locator, last, fuel, lookups, c);
      r.found.Err? ==>
        && |r.trace| == fuel && (forall k :: c.finds <= k < c.finds + fuel ==> lookups(k).Err?)
        && r.lastError == (if fuel == 0 then last else Some(lookups(c.finds + fuel - 1).error))
    decreases fuel
  {
    if fuel > 0 && lookups(c.finds).Err? {
      InitElementExhausts(locator, Some(lookups(c.finds).error), fuel - 1, lookups, c.(finds := c.finds + 1));
    }
  }

  /**
   One pass through the `try` block sends the commands in order to one
   element; every command before the last one sent succeeded, and the pass
   is complete exactly when every command succeeded.
   */
  lemma {:induction false} IssueLaws<T>(target: ElemRef, cmds: seq<Command>, replies: Replies<T>, acts: nat)
    requires |cmds| > 0
    ensures var r := Issue(target, cmds, replies, acts);
      && (forall k :: 0 <= k < |r.trace| ==> r.trace[k] == Act(target, cmds[k]))
      && (forall k :: acts <= k < r.acts - 1 ==> replies(k).Ok?)
      && (r.result.Ok? ==> r.acts == acts + |cmds| && r.trace == Attempted(target, cmds))
    decreases |cmds|
  {
    if replies(acts).Ok? && |cmds| > 1 {
      IssueLaws(target, cmds[1..], replies, acts + 1);
    }
  }

  /** A lookup that succeeds at once binds to what it found and records nothing. */
  lemma {:induction false} BindsAtOnce(locator: Locator, last: Option<Error>, fuel: nat, lookups: Replies<ElemRef>, c: Cursor)
    requires fuel > 0 && lookups(c.finds).Ok?
    ensures InitElement(locator, last, fuel, lookups, c)
         == Binding(lookups(c.finds), last, Cursor(c.acts, c.finds + 1), [Find(locator)])
  {
  }

  /** A rebind whose every lookup fails ends with the last lookup error. */
  lemma {:induction false} BindFails(locator: Locator, last: Option<Error>, fuel: nat, lookups: Replies<ElemRef>, c: Cursor, e: Error)
    requires fuel > 0 && LookupsFail(lookups, c.finds, fuel) && lookups(c.finds + fuel - 1) == Err(e)
    ensures var b := InitElement(locator, last, fuel, lookups, c);
      b.found == Err(e) && b.cursor == Cursor(c.acts, c.finds + fuel)
  {
    forall k | c.finds <= k < c.finds + fuel
      ensures lookups(k).Err?
    {
      assert Missed(lookups, k);
    }
    InitElementFinds(locator, last, fuel, lookups, c);
    InitElementExhausts(locator, last, fuel, lookups, c);
  }

  /** The last `n` calls of `a + b` are the last `n` calls of `b`. */
  lemma {:induction false} SuffixOfConcat(a: seq<Call>, b: seq<Call>, n: nat)
    requires n <= |b|
    ensures (a + b)[|a + b| - n..] == b[|b| - n..]
  {
  }

  /** One iteration ends only with a value or an exception, and a value comes with the full attempt on the cached element. */
  lemma {:induction false} IterateEnds<T>(d: Discipline, cmds: seq<Command>, h: Handle, bindFuel: nat,
                       replies: Replies<T>, lookups: Replies<ElemRef>, c: Cursor)
    requires |cmds| > 0
    ensures var s := Iterate(d, cmds, h, bindFuel, replies, lookups, c);
      && (s.Done? ==> !s.outcome.Lapsed?)
      && (s.Done? && s.outcome.Value? ==>
            s.handle == h && replies(s.cursor.acts - 1) == Ok(s.outcome.value) && s.trace == Attempted(h.element, cmds))
  {
    var a := Issue(h.element, cmds, replies, c.acts);
    IssueLaws(h.element, cmds, replies, c.acts);
  }

  /** One iteration looks up only with the handle's locator. */
  lemma {:induction false} IterateLooksUpWith<T>(d: Discipline, cmds: seq<Command>, h: Handle, bindFuel: nat,
                              replies: Replies<T>, lookups: Replies<ElemRef>, c: Cursor)
    requires |cmds| > 0
    ensures LooksUpWith(Iterate(d, cmds, h, bindFuel, replies, lookups, c).trace, h.locator)
  {
    var a := Issue(h.element, cmds, replies, c.acts);
    IssueLaws(h.element, cmds, replies, c.acts);
    if a.result.Err? {
      InitElementLooksUp(h.locator, d.Note(h.lastError, a.result.error), bindFuel, lookups, c.(acts := a.acts));
    }
  }

  /** One iteration sends only the operation's commands. */
  lemma {:induction false} IterateSends<T>(d: Discipline, cmds: seq<Command>, h: Handle, bindFuel: nat,
                        replies: Replies<T>, lookups: Replies<ElemRef>, c: Cursor)
    requires |cmds| > 0
    ensures Sends(Iterate(d, cmds, h, bindFuel, replies, lookups, c).trace, cmds)
  {
    var a := Issue(h.element, cmds, replies, c.acts);
    IssueLaws(h.element, cmds, replies, c.acts);
    if a.result.Err? {
      InitElementLooksUp(h.locator, d.Note(h.lastError, a.result.error), bindFuel, lookups, c.(acts := a.acts));
    }
  }

  /** One iteration of a discipline that never rebinds talks only to the cached element. */
  lemma {:induction false} IterateKeepsElement<T>(d: Discipline, cmds: seq<Command>, h: Handle, bindFuel: nat,
                               replies: Replies<T>, lookups: Replies<ElemRef>, c: Cursor)
    requires |cmds| > 0 && !d.rebinds
    ensures var s := Iterate(d, cmds, h, bindFuel, replies, lookups, c);
      s.handle.element == h.element && s.cursor.finds == c.finds && ActsOnlyOn(s.trace, h.element)
  {
    var a := Issue(h.element, cmds, replies, c.acts);
    IssueLaws(h.element, cmds, replies, c.acts);
  }

  /** An iteration changes the cached element only to what the last lookup it made found. */
  lemma {:induction false} IterateBindsOnlyFound<T>(d: Discipline, cmds: seq<Command>, h: Handle, bindFuel: nat,
                                 replies: Replies<T>, lookups: Replies<ElemRef>, c: Cursor)
    requires |cmds| > 0
    ensures var s := Iterate(d, cmds, h, bindFuel, replies, lookups, c);
      s.handle.element == h.element || (c.finds < s.cursor.finds && lookups(s.cursor.finds - 1) == Ok(s.handle.element))
  {
    var a := Issue(h.element, cmds, replies, c.acts);
    if a.result.Err? {
      InitElementFinds(h.locator, d.Note(h.lastError, a.result.error), bindFuel, lookups, c.(acts := a.acts));
    }
  }

  /** A loop with budget left runs one iteration and, if that asks for another, the rest of the loop. */
  lemma {:induction false} PollUnfolds<T>(d: Discipline, cmds: seq<Command>, h: Handle, fuel: nat, bindFuel: nat,
                       replies: Replies<T>, lookups: Replies<ElemRef>, c: Cursor)
    requires |cmds| > 0 && fuel > 0
    ensures var s := Iterate(d, cmds, h, bindFuel, replies, lookups, c);
      && (s.Done? ==> Poll(d, cmds, h, fuel, bindFuel, replies, lookups, c) == Run(s.outcome, s.handle, s.cursor, s.trace))
      && (s.Again? ==>
            var r := Poll(d, cmds, s.handle, fuel - 1, bindFuel, replies, lookups, s.cursor);
            Poll(d, cmds, h, fuel, bindFuel, replies, lookups, c) == r.(trace := s.trace + r.trace))
  {
  }

  /**
   The loop never changes what the handle looks up or how long it waits,
   only moves the cursors forward, falls through only under a silent
   discipline, and returns only what the transport replied.
   */
  lemma {:induction false} PollKeepsHandle<T>(d: Discipline, cmds: seq<Command>, h: Handle, fuel: nat, bindFuel: nat,
                                              replies: Replies<T>, lookups: Replies<ElemRef>, c: Cursor)
    requires |cmds| > 0
    ensures var r := Poll(d, cmds, h, fuel, bindFuel, replies, lookups, c);
      && r.handle.locator == h.locator && r.handle.timeout == h.timeout
      && c.acts <= r.cursor.acts && c.finds <= r.cursor.finds
      && (r.outcome.Lapsed? ==> d.silent)
      && (r.outcome.Value? ==> r.cursor.acts > c.acts && replies(r.cursor.acts - 1) == Ok(r.outcome.value))
    decreases fuel
  {
    if fuel > 0 {
      PollUnfolds(d, cmds, h, fuel, bindFuel, replies, lookups, c);
      var s := Iterate(d, cmds, h, bindFuel, replies, lookups, c);
      if s.Again? {
        PollKeepsHandle(d, cmds, s.handle, fuel - 1, bindFuel, replies, lookups, s.cursor);
      }
      IterateEnds(d, cmds, h, bindFuel, replies, lookups, c);
    }
  }

  /** Every lookup the loop makes, in every rebind, uses the handle's own locator. */
  lemma {:induction false} PollLooksUpWith<T>(d: Discipline, cmds: seq<Command>, h: Handle, fuel: nat, bindFuel: nat,
                                              replies: Replies<T>, lookups: Replies<ElemRef>, c: Cursor)
    requires |cmds| > 0
    ensures LooksUpWith(Poll(d, cmds, h, fuel, bindFuel, replies, lookups, c).trace, h.locator)
    decreases fuel
  {
    if fuel > 0 {
      PollUnfolds(d, cmds, h, fuel, bindFuel, replies, lookups, c);
      var s := Iterate(d, cmds, h, bindFuel, replies, lookups, c);
      if s.Again? {
        PollLooksUpWith(d, cmds, s.handle, fuel - 1, bindFuel, replies, lookups, s.cursor);
      }
      IterateLooksUpWith(d, cmds, h, bindFuel, replies, lookups, c);
    }
  }

  /** Every command the loop sends is one of the operation's own. */
  lemma {:induction false} PollSends<T>(d: Discipline, cmds: seq<Command>, h: Handle, fuel: nat, bindFuel: nat,
                                        replies: Replies<T>, lookups: Replies<ElemRef>, c: Cursor)
    requires |cmds| > 0
    ensures Sends(Poll(d, cmds, h, fuel, bindFuel, replies, lookups, c).trace, cmds)
    decreases fuel
  {
    if fuel > 0 {
      PollUnfolds(d, cmds, h, fuel, bindFuel, replies, lookups, c);
      var s := Iterate(d, cmds, h, bindFuel, replies, lookups, c);
      if s.Again? {
        PollSends(d, cmds, s.handle, fuel - 1, bindFuel, replies, lookups, s.cursor);
      }
      IterateSends(d, cmds, h, bindFuel, replies, lookups, c);
    }
  }

  /** A discipline that never rebinds keeps the cached element and sends every command to it. */
  lemma {:induction false} PollKeepsElement<T>(d: Discipline, cmds: seq<Command>, h: Handle, fuel: nat, bindFuel: nat,
                                               replies: Replies<T>, lookups: Replies<ElemRef>, c: Cursor)
    requires |cmds| > 0 && !d.rebinds
    ensures var r := Poll(d, cmds, h, fuel, bindFuel, replies, lookups, c);
      r.handle.element == h.element && r.cursor.finds == c.finds && ActsOnlyOn(r.trace, h.element)
    decreases fuel
  {
    if fuel > 0 {
      PollUnfolds(d, cmds, h, fuel, bindFuel, replies, lookups, c);
      var s := Iterate(d, cmds, h, bindFuel, replies, lookups, c);
      if s.Again? {
        PollKeepsElement(d, cmds, s.handle, fuel - 1, bindFuel, replies, lookups, s.cursor);
      }
      IterateKeepsElement(d, cmds, h, bindFuel, replies, lookups, c);
    }
  }

  /** The loop changes the cached element only to something one of its own lookups found. */
  lemma {:induction false} PollBindsOnlyFound<T>(d: Discipline, cmds: seq<Command>, h: Handle, fuel: nat, bindFuel: nat,
                                                 replies: Replies<T>, lookups: Replies<ElemRef>, c: Cursor)
    requires |cmds| > 0
    ensures var r := Poll(d, cmds, h, fuel, bindFuel, replies, lookups, c);
      r.handle.element == h.element || exists k :: c.finds <= k < r.cursor.finds && lookups(k) == Ok(r.handle.element)
    decreases fuel
  {
    if fuel > 0 {
      PollUnfolds(d, cmds, h, fuel, bindFuel, replies, lookups, c);
      IterateBindsOnlyFound(d, cmds, h, bindFuel, replies, lookups, c);
      var s := Iterate(d, cmds, h, bindFuel, replies, lookups, c);
      if s.Again? {
        PollBindsOnlyFound(d, cmds, s.handle, fuel - 1, bindFuel, replies, lookups, s.cursor);
        var r := Poll(d, cmds, s.handle, fuel - 1, bindFuel, replies, lookups, s.cursor);
        assert Poll(d, cmds, h, fuel, bindFuel, replies, lookups, c) == r.(trace := s.trace + r.trace);
        if r.handle.element == s.handle.element && s.handle.element != h.element {
          assert c.finds <= s.cursor.finds - 1 < r.cursor.finds && lookups(s.cursor.finds - 1) == Ok(r.handle.element);
        }
      }
    }
  }

  /**
   What every run of an element operation guarantees whatever the transport
   replies: the handle keeps its locator and timeout, every lookup uses that
   locator, every command is one of the operation's own, the loop falls
   through only under a silent discipline, a value is the reply of the last
   command sent, the cached element changes only to something a lookup of
   this run found, and a discipline that never rebinds keeps the cached
   element and talks to nothing else.
   */
  ghost predicate Conforms<T>(d: Discipline, cmds: seq<Command>, h: Handle, c: Cursor,
                              replies: Replies<T>, lookups: Replies<ElemRef>, r: Run<T>) {
    && r.handle.locator == h.locator && r.handle.timeout == h.timeout
    && c.acts <= r.cursor.acts && c.finds <= r.cursor.finds
    && (r.outcome.Lapsed? ==> d.silent)
    && (r.outcome.Value? ==> r.cursor.acts > c.acts && replies(r.cursor.acts - 1) == Ok(r.outcome.value))
    && LooksUpWith(r.trace, h.locator) && Sends(r.trace, cmds)
    && (r.handle.element == h.element || exists k :: c.finds <= k < r.cursor.finds && lookups(k) == Ok(r.handle.element))
    && (!d.rebinds ==> r.handle.element == h.element && r.cursor.finds == c.finds && ActsOnlyOn(r.trace, h.element))
  }

  lemma {:induction false} PollConforms<T>(d: Discipline, cmds: seq<Command>, h: Handle, fuel: nat, bindFuel: nat,
                        replies: Replies<T>, lookups: Replies<ElemRef>, c: Cursor)
    requires |cmds| > 0
    ensures Conforms(d, cmds, h, c, replies, lookups, Poll(d, cmds, h, fuel, bindFuel, replies, lookups, c))
  {
    PollKeepsHandle(d, cmds, h, fuel, bindFuel, replies, lookups, c);
    PollLooksUpWith(d, cmds, h, fuel, bindFuel, replies, lookups, c);
    PollSends(d, cmds, h, fuel, bindFuel, replies, lookups, c);
    PollBindsOnlyFound(d, cmds, h, fuel, bindFuel, replies, lookups, c);
    if !d.rebinds {
      PollKeepsElement(d, cmds, h, fuel, bindFuel, replies, lookups, c);
    }
  }

  /** An attempt whose `j`-th command is the first to fail sends that command and those before it, and nothing after. */
  lemma {:induction false} IssueFailsAt<T>(target: ElemRef, cmds: seq<Command>, replies: Replies<T>, acts: nat, j: nat)
    requires j < |cmds| && FailsAt(replies, acts, j)
    ensures Issue(target, cmds, replies, acts) == Attempt(replies(acts + j), acts + j + 1, Attempted(target, cmds[..j + 1]))
    decreases j
  {
    if j > 0 {
      assert Answered(replies, acts);
      IssueFailsAt(target, cmds[1..], replies, acts + 1, j - 1);
      assert [Act(target, cmds[0])] + Attempted(target, cmds[1..][..j]) == Attempted(target, cmds[..j + 1]);
    } else {
      assert Attempted(target, cmds[..1]) == [Act(target, cmds[0])];
    }
  }

  /** An attempt whose every command succeeds sends them all and yields the reply to the last one. */
  lemma {:induction false} IssueSucceeds<T>(target: ElemRef, cmds: seq<Command>, replies: Replies<T>, acts: nat)
    requires |cmds| > 0 && Succeeds(cmds, replies, acts)
    ensures Issue(target, cmds, replies, acts) == Attempt(replies(acts + |cmds| - 1), acts + |cmds|, Attempted(target, cmds))
    decreases |cmds|
  {
    assert Answered(replies, acts);
    if |cmds| > 1 {
      IssueSucceeds(target, cmds[1..], replies, acts + 1);
      assert [Act(target, cmds[0])] + Attempted(target, cmds[1..]) == Attempted(target, cmds);
    } else {
      assert Attempted(target, cmds) == [Act(target, cmds[0])];
    }
  }

  /** One iteration whose commands all succeed ends the loop with the reply to the last of them. */
  lemma {:induction false} SucceedingIteration<T>(d: Discipline, cmds: seq<Command>, h: Handle, bindFuel: nat,
                               replies: Replies<T>, lookups: Replies<ElemRef>, c: Cursor, v: T)
    requires |cmds| > 0 && Succeeds(cmds, replies, c.acts) && replies(c.acts + |cmds| - 1) == Ok(v)
    ensures var s := Iterate(d, cmds, h, bindFuel, replies, lookups, c);
      s.Done? && s.outcome == Value(v) && s.handle == h && s.cursor == Cursor(c.acts + |cmds|, c.finds)
  {
    IssueSucceeds(h.element, cmds, replies, c.acts);
  }

  /** One iteration whose `j`-th command fails with an error the discipline does not retry rethrows it. */
  lemma {:induction false} PermanentIteration<T>(d: Discipline, cmds: seq<Command>, h: Handle, bindFuel: nat,
                              replies: Replies<T>, lookups: Replies<ElemRef>, c: Cursor, j: nat)
    requires j < |cmds| && FailsAt(replies, c.acts, j) && !d.Retries(replies(c.acts + j).error)
    ensures var s := Iterate(d, cmds, h, bindFuel, replies, lookups, c);
      var e := replies(c.acts + j).error;
      && s.Done? && s.outcome == Raised(e) && s.cursor == Cursor(c.acts + j + 1, c.finds)
      && s.handle == h.(lastError := d.Note(h.lastError, e))
  {
    IssueFailsAt(h.element, cmds, replies, c.acts, j);
  }

  /** Without rebinding, a retried failure is recorded as the discipline says and the loop goes round again. */
  lemma {:induction false} RetriedIteration<T>(d: Discipline, cmds: seq<Command>, h: Handle, bindFuel: nat,
                            replies: Replies<T>, lookups: Replies<ElemRef>, c: Cursor, j: nat)
    requires !d.rebinds && j < |cmds| && FailsAt(replies, c.acts, j) && d.Retries(replies(c.acts + j).error)
    ensures var e := replies(c.acts + j).error;
      Iterate(d, cmds, h, bindFuel, replies, lookups, c)
      == Again(h.(lastError := d.Note(h.lastError, e)), Cursor(c.acts + j + 1, c.finds), Attempted(h.element, cmds[..j + 1]))
  {
    IssueFailsAt(h.element, cmds, replies, c.acts, j);
  }

  /** A retried failure followed by a lookup that succeeds at once rebinds the handle to what was found. */
  lemma {:induction false} RebindingIteration<T>(d: Discipline, cmds: seq<Command>, h: Handle, bindFuel: nat,
                              replies: Replies<T>, lookups: Replies<ElemRef>, c: Cursor, j: nat)
    requires d.rebinds && j < |cmds| && FailsAt(replies, c.acts, j) && d.Retries(replies(c.acts + j).error)
    requires bindFuel > 0 && lookups(c.finds).Ok?
    ensures var e := replies(c.acts + j).error;
      Iterate(d, cmds, h, bindFuel, replies, lookups, c)
      == Again(h.(element := lookups(c.finds).value, lastError := d.Note(h.lastError, e)),
               Cursor(c.acts + j + 1, c.finds + 1), Attempted(h.element, cmds[..j + 1]) + [Find(h.locator)])
  {
    IssueFailsAt(h.element, cmds, replies, c.acts, j);
    BindsAtOnce(h.locator, d.Note(h.lastError, replies(c.acts + j).error), bindFuel, lookups, Cursor(c.acts + j + 1, c.finds));
  }

  /** One iteration whose retried failure is followed by a rebind that finds nothing. */
  lemma {:induction false} FailedRebindIteration<T>(d: Discipline, cmds: seq<Command>, h: Handle, bindFuel: nat,
                                 replies: Replies<T>, lookups: Replies<ElemRef>, c: Cursor, j: nat, e: Error)
    requires d.rebinds && bindFuel > 0
    requires j < |cmds| && FailsAt(replies, c.acts, j) && d.Retries(replies(c.acts + j).error)
    requires LookupsFail(lookups, c.finds, bindFuel) && lookups(c.finds + bindFuel - 1) == Err(e)
    ensures var s := Iterate(d, cmds, h, bindFuel, replies, lookups, c);
      s.Done? && s.outcome == Raised(e) && s.cursor == Cursor(c.acts + j + 1, c.finds + bindFuel)
  {
    IssueFailsAt(h.element, cmds, replies, c.acts, j);
    BindFails(h.locator, d.Note(h.lastError, replies(c.acts + j).error), bindFuel, lookups, Cursor(c.acts + j + 1, c.finds), e);
  }

  /** A retried failed attempt: a rebind that finds at once when the discipline rebinds, nothing more otherwise. */
  lemma {:induction false} RetryingIteration<T>(d: Discipline, cmds: seq<Command>, h: Handle, bindFuel: nat,
                             replies: Replies<T>, lookups: Replies<ElemRef>, c: Cursor, j: nat)
    requires j < |cmds| && FailsAt(replies, c.acts, j) && d.Retries(replies(c.acts + j).error)
    requires d.rebinds ==> bindFuel > 0 && lookups(c.finds).Ok?
    ensures var s := Iterate(d, cmds, h, bindFuel, replies, lookups, c);
      && s.Again? && s.cursor == Cursor(c.acts + j + 1, if d.rebinds then c.finds + 1 else c.finds)
      && s.handle.lastError == d.Note(h.lastError, replies(c.acts + j).error)
  {
    if d.rebinds {
      RebindingIteration(d, cmds, h, bindFuel, replies, lookups, c, j);
    } else {
      RetriedIteration(d, cmds, h, bindFuel, replies, lookups, c, j);
    }
  }

  /** One iteration of an element operation, as a step function of the handle and the cursors. */
  ghost function StepOf<T>(d: Discipline, cmds: seq<Command>, bindFuel: nat, replies: Replies<T>, lookups: Replies<ElemRef>): (Handle, Cursor) -> Step<T>
    requires |cmds| > 0
  {
    (h, c) => Iterate(d, cmds, h, bindFuel, replies, lookups, c)
  }

  /** The deadline loop of an element operation is the abstract loop over its iteration. */
  lemma {:induction false} PollIsLoop<T>(d: Discipline, cmds: seq<Command>, h: Handle, fuel: nat, bindFuel: nat,
                                         replies: Replies<T>, lookups: Replies<ElemRef>, c: Cursor)
    requires |cmds| > 0
    ensures Poll(d, cmds, h, fuel, bindFuel, replies, lookups, c) == Loop(d, StepOf(d, cmds, bindFuel, replies, lookups), fuel, h, c)
    decreases fuel
  {
    if fuel > 0 {
      var s := Iterate(d, cmds, h, bindFuel, replies, lookups, c);
      if s.Again? {
        PollIsLoop(d, cmds, s.handle, fuel - 1, bindFuel, replies, lookups, s.cursor);
      }
    }
  }

  /** Attempts failing at positions `js` end where `Start` says the next one starts, with one lookup each when the discipline rebinds. */
  lemma {:induction false} AfterIsStart(d: Discipline, c: Cursor, js: seq<nat>)
    ensures After(d, c, js) == Cursor(Start(c.acts, js, |js|), if d.rebinds then c.finds + |js| else c.finds)
    decreases |js|
  {
    if |js| > 0 {
      AfterIsStart(d, Next(d, c, js[0]), js[1..]);
      StartShift(c.acts, js, |js| - 1);
    }
  }

  /** An attempt failing at position `j` with a retried error, followed by a rebind that finds at once, is one retried step. */
  lemma {:induction false} RetryingStep<T>(d: Discipline, cmds: seq<Command>, bindFuel: nat, replies: Replies<T>, lookups: Replies<ElemRef>,
                                           at: Cursor, j: nat, e: Error)
    requires j < |cmds| && FailsAt(replies, at.acts, j) && replies(at.acts + j) == Err(e) && d.Retries(e)
    requires d.rebinds ==> bindFuel > 0 && lookups(at.finds).Ok?
    ensures RetriesOnce(d, StepOf(d, cmds, bindFuel, replies, lookups), replies, at, j)
  {
    forall hh: Handle {
      RetryingIteration(d, cmds, hh, bindFuel, replies, lookups, at, j);
    }
  }

  /** Failed attempts at positions `js`, each followed by a rebind that finds at once, are a chain of retried steps. */
  lemma {:induction false} ChainOfAttempts<T>(d: Discipline, cmds: seq<Command>, bindFuel: nat, replies: Replies<T>, lookups: Replies<ElemRef>,
                                              c: Cursor, js: seq<nat>)
    requires |cmds| > 0 && AttemptsFail(d, cmds, replies, c.acts, js)
    requires d.rebinds && |js| > 0 ==> bindFuel > 0 && LookupsSucceed(lookups, c.finds, |js|)
    ensures Chain(d, StepOf(d, cmds, bindFuel, replies, lookups), replies, c, js)
    decreases |js|
  {
    if |js| > 0 {
      AttemptsFailFirst(d, cmds, replies, c.acts, js);
      if d.rebinds {
        LookupsSucceedFirst(lookups, c.finds, |js|);
      }
      RetryingStep(d, cmds, bindFuel, replies, lookups, c, js[0], replies(c.acts + js[0]).error);
      ChainOfAttempts(d, cmds, bindFuel, replies, lookups, Next(d, c, js[0]), js[1..]);
    }
  }

  /** From a cursor where every command succeeds, every handle's iteration ends the loop with the last reply. */
  lemma {:induction false} SucceedingStep<T>(d: Discipline, cmds: seq<Command>, bindFuel: nat, replies: Replies<T>, lookups: Replies<ElemRef>,
                                             at: Cursor, v: T)
    requires |cmds| > 0 && Succeeds(cmds, replies, at.acts) && replies(at.acts + |cmds| - 1) == Ok(v)
    ensures Ends(StepOf(d, cmds, bindFuel, replies, lookups), at, Value(v), Cursor(at.acts + |cmds|, at.finds))
  {
    forall hh: Handle {
      SucceedingIteration(d, cmds, hh, bindFuel, replies, lookups, at, v);
    }
  }

  /** From a cursor where a command fails with an error the discipline does not retry, every handle's iteration rethrows it. */
  lemma {:induction false} PermanentStep<T>(d: Discipline, cmds: seq<Command>, bindFuel: nat, replies: Replies<T>, lookups: Replies<ElemRef>,
                                            at: Cursor, j: nat, e: Error)
    requires j < |cmds| && FailsAt(replies, at.acts, j) && replies(at.acts + j) == Err(e) && !d.Retries(e)
    ensures Ends(StepOf(d, cmds, bindFuel, replies, lookups), at, Raised(e), Cursor(at.acts + j + 1, at.finds))
    ensures Noting(d, StepOf(d, cmds, bindFuel, replies, lookups), at, e)
  {
    forall hh: Handle {
      PermanentIteration(d, cmds, hh, bindFuel, replies, lookups, at, j);
    }
  }

  /** From a cursor where a retried failure is followed by a rebind that finds nothing, every handle's iteration throws the last lookup error. */
  lemma {:induction false} FailedRebindStep<T>(d: Discipline, cmds: seq<Command>, bindFuel: nat, replies: Replies<T>, lookups: Replies<ElemRef>,
                                               at: Cursor, j: nat, e: Error)
    requires d.rebinds && bindFuel > 0
    requires j < |cmds| && FailsAt(replies, at.acts, j) && d.Retries(replies(at.acts + j).error)
    requires LookupsFail(lookups, at.finds, bindFuel) && lookups(at.finds + bindFuel - 1) == Err(e)
    ensures Ends(StepOf(d, cmds, bindFuel, replies, lookups), at, Raised(e), Cursor(at.acts + j + 1, at.finds + bindFuel))
  {
    forall hh: Handle {
      FailedRebindIteration(d, cmds, hh, bindFuel, replies, lookups, at, j, e);
    }
  }

  /** `LoopEnds` for the deadline loop of an element operation. */
  lemma {:induction false} PollEnds<T>(d: Discipline, cmds: seq<Command>, h: Handle, fuel: nat, bindFuel: nat,
                                       replies: Replies<T>, lookups: Replies<ElemRef>, c: Cursor, js: seq<nat>, o: Outcome<T>, end: Cursor)
    requires |cmds| > 0 && |js| < fuel
    requires Chain(d, StepOf(d, cmds, bindFuel, replies, lookups), replies, c, js)
    requires Ends(StepOf(d, cmds, bindFuel, replies, lookups), After(d, c, js), o, end)
    ensures var r := Poll(d, cmds, h, fuel, bindFuel, replies, lookups, c);
      r.outcome == o && r.cursor == end
  {
    PollIsLoop(d, cmds, h, fuel, bindFuel, replies, lookups, c);
    var last := LoopEnds(d, StepOf(d, cmds, bindFuel, replies, lookups), replies, fuel, h, c, js, o, end);
  }

  /** `LoopStops` for the deadline loop of an element operation. */
  lemma {:induction false} PollStops<T>(d: Discipline, cmds: seq<Command>, h: Handle, fuel: nat, bindFuel: nat,
                                        replies: Replies<T>, lookups: Replies<ElemRef>, c: Cursor, js: seq<nat>, e: Error, end: Cursor)
    requires |cmds| > 0 && |js| < fuel && !d.Retries(e)
    requires Chain(d, StepOf(d, cmds, bindFuel, replies, lookups), replies, c, js)
    requires Ends(StepOf(d, cmds, bindFuel, replies, lookups), After(d, c, js), Raised(e), end)
    requires Noting(d, StepOf(d, cmds, bindFuel, replies, lookups), After(d, c, js), e)
    ensures var r := Poll(d, cmds, h, fuel, bindFuel, replies, lookups, c);
      && r.outcome == Raised(e) && r.cursor == end
      && (d.notesPermanent ==> r.handle.lastError == Some(e))
      && (!d.notesPermanent && !d.notesRetried ==> r.handle.lastError == h.lastError)
  {
    PollIsLoop(d, cmds, h, fuel, bindFuel, replies, lookups, c);
    LoopStops(d, StepOf(d, cmds, bindFuel, replies, lookups), replies, fuel, h, c, js, e, end);
  }

  /** `LoopExhausts` for the deadline loop of an element operation. */
  lemma {:induction false} PollExhausts<T>(d: Discipline, cmds: seq<Command>, h: Handle, fuel: nat, bindFuel: nat,
                                           replies: Replies<T>, lookups: Replies<ElemRef>, c: Cursor, js: seq<nat>)
    requires |cmds| > 0 && |js| == fuel
    requires Chain(d, StepOf(d, cmds, bindFuel, replies, lookups), replies, c, js)
    ensures var r := Poll(d, cmds, h, fuel, bindFuel, replies, lookups, c);
      && (fuel == 0 || !d.notesRetried ==> r.handle.lastError == h.lastError)
      && (fuel > 0 && d.notesRetried ==> r.handle.lastError == Some(ErrorOf(replies(After(d, c, js).acts - 1))))
      && r.outcome == (if d.silent then Lapsed else Raised(Thrown(r.handle.lastError)))
      && r.cursor == After(d, c, js)
  {
    PollIsLoop(d, cmds, h, fuel, bindFuel, replies, lookups, c);
    LoopExhausts(d, StepOf(d, cmds, bindFuel, replies, lookups), replies, fuel, h, c, js);
  }

  /**
   Self-healing: after attempts that fail at positions `js` with errors the
   discipline retries, each followed by a rebind that finds at once, an
   attempt whose commands all succeed ends the loop with the reply to its
   last command, provided the budget lasts.
   */
  lemma {:induction false} RecoversAfterRetries<T>(d: Discipline, cmds: seq<Command>, h: Handle, fuel: nat, bindFuel: nat,
                                                   replies: Replies<T>, lookups: Replies<ElemRef>, c: Cursor, js: seq<nat>, v: T)
    requires |cmds| > 0 && |js| < fuel
    requires AttemptsFail(d, cmds, replies, c.acts, js)
    requires Succeeds(cmds, replies, Start(c.acts, js, |js|)) && replies(Start(c.acts, js, |js|) + |cmds| - 1) == Ok(v)
    requires d.rebinds && |js| > 0 ==> bindFuel > 0 && LookupsSucceed(lookups, c.finds, |js|)
    ensures var r := Poll(d, cmds, h, fuel, bindFuel, replies, lookups, c);
      r.outcome == Value(v) && r.cursor.acts == Start(c.acts, js, |js|) + |cmds|
  {
    var at := After(d, c, js);
    AfterIsStart(d, c, js);
    ChainOfAttempts(d, cmds, bindFuel, replies, lookups, c, js);
    SucceedingStep(d, cmds, bindFuel, replies, lookups, at, v);
    PollEnds(d, cmds, h, fuel, bindFuel, replies, lookups, c, js, Value(v), Cursor(at.acts + |cmds|, at.finds));
  }

  /**
   Short circuit: once a command fails with an error the discipline does
   not retry, that error is rethrown at once and the remaining budget is
   not used. A discipline that records what it rethrows leaves it in
   `lastException`; one that records nothing (that of `Click`) leaves
   `lastException` as it found it.
   */
  lemma {:induction false} StopsAtPermanent<T>(d: Discipline, cmds: seq<Command>, h: Handle, fuel: nat, bindFuel: nat,
                                               replies: Replies<T>, lookups: Replies<ElemRef>, c: Cursor, js: seq<nat>, j: nat, e: Error)
    requires |js| < fuel && AttemptsFail(d, cmds, replies, c.acts, js)
    requires j < |cmds| && FailsAt(replies, Start(c.acts, js, |js|), j)
    requires replies(Start(c.acts, js, |js|) + j) == Err(e) && !d.Retries(e)
    requires d.rebinds && |js| > 0 ==> bindFuel > 0 && LookupsSucceed(lookups, c.finds, |js|)
    ensures var r := Poll(d, cmds, h, fuel, bindFuel, replies, lookups, c);
      && r.outcome == Raised(e)
      && r.cursor == Cursor(Start(c.acts, js, |js|) + j + 1, if d.rebinds then c.finds + |js| else c.finds)
      && (d.notesPermanent ==> r.handle.lastError == Some(e))
      && (!d.notesPermanent && !d.notesRetried ==> r.handle.lastError == h.lastError)
  {
    var at := After(d, c, js);
    AfterIsStart(d, c, js);
    ChainOfAttempts(d, cmds, bindFuel, replies, lookups, c, js);
    PermanentStep(d, cmds, bindFuel, replies, lookups, at, j, e);
    PollStops(d, cmds, h, fuel, bindFuel, replies, lookups, c, js, e, Cursor(at.acts + j + 1, at.finds));
  }

  /**
   The end of the budget: when every attempt within it fails with an error
   the discipline retries (and every rebind finds at once), `Click` falls
   through silently and every other operation throws `lastException` —
   the last failure for the disciplines that record every failure, and for
   `Click`, `SendKeys` and `Clear` whatever the handle held before.
   */
  lemma {:induction false} ExhaustsBudget<T>(d: Discipline, cmds: seq<Command>, h: Handle, fuel: nat, bindFuel: nat,
                                             replies: Replies<T>, lookups: Replies<ElemRef>, c: Cursor, js: seq<nat>)
    requires |cmds| > 0 && |js| == fuel && AttemptsFail(d, cmds, replies, c.acts, js)
    requires d.rebinds && fuel > 0 ==> bindFuel > 0 && LookupsSucceed(lookups, c.finds, fuel)
    ensures var r := Poll(d, cmds, h, fuel, bindFuel, replies, lookups, c);
      && (fuel == 0 || !d.notesRetried ==> r.handle.lastError == h.lastError)
      && (fuel > 0 && d.notesRetried ==> r.handle.lastError.Some? && replies(Start(c.acts, js, |js|) - 1) == Err(r.handle.lastError.value))
      && r.outcome == (if d.silent then Lapsed else Raised(Thrown(r.handle.lastError)))
      && r.cursor.acts == Start(c.acts, js, |js|)
      && (fuel == 0 ==> r.trace == [] && r.cursor == c)
  {
    AfterIsStart(d, c, js);
    ChainOfAttempts(d, cmds, bindFuel, replies, lookups, c, js);
    PollExhausts(d, cmds, h, fuel, bindFuel, replies, lookups, c, js);
    if fuel > 0 {
      AttemptsFailLast(d, cmds, replies, c.acts, js);
    }
  }

  /**
   A rebind that itself runs out of budget ends the operation: the last
   lookup error escapes, whatever budget the operation had left.
   */
  lemma {:induction false} RebindFailureEscapes<T>(d: Discipline, cmds: seq<Command>, h: Handle, fuel: nat, bindFuel: nat,
                                                   replies: Replies<T>, lookups: Replies<ElemRef>, c: Cursor, js: seq<nat>, j: nat, e: Error)
    requires d.rebinds && |js| < fuel && bindFuel > 0 && AttemptsFail(d, cmds, replies, c.acts, js)
    requires j < |cmds| && FailsAt(replies, Start(c.acts, js, |js|), j) && d.Retries(replies(Start(c.acts, js, |js|) + j).error)
    requires LookupsSucceed(lookups, c.finds, |js|)
    requires LookupsFail(lookups, c.finds + |js|, bindFuel)
    requires lookups(c.finds + |js| + bindFuel - 1) == Err(e)
    ensures var r := Poll(d, cmds, h, fuel, bindFuel, replies, lookups, c);
      && r.outcome == Raised(e)
      && r.cursor == Cursor(Start(c.acts, js, |js|) + j + 1, c.finds + |js| + bindFuel)
  {
    var at := After(d, c, js);
    AfterIsStart(d, c, js);
    ChainOfAttempts(d, cmds, bindFuel, replies, lookups, c, js);
    FailedRebindStep(d, cmds, bindFuel, replies, lookups, at, j, e);
    PollEnds(d, cmds, h, fuel, bindFuel, replies, lookups, c, js, Raised(e), Cursor(at.acts + j + 1, at.finds + bindFuel));
  }

  /** A loop that ends with a value ends with the attempt that produced it. */
  lemma {:induction false} SuccessIsLastAttempt<T>(d: Discipline, cmds: seq<Command>, h: Handle, fuel: nat, bindFuel: nat,
                                                   replies: Replies<T>, lookups: Replies<ElemRef>, c: Cursor)
    requires |cmds| > 0
    ensures var r := Poll(d, cmds, h, fuel, bindFuel, replies, lookups, c);
      r.outcome.Value? ==> |cmds| <= |r.trace| && r.trace[|r.trace| - |cmds|..] == Attempted(r.handle.element, cmds)
    decreases fuel
  {
    if fuel > 0 {
      PollUnfolds(d, cmds, h, fuel, bindFuel, replies, lookups, c);
      var s := Iterate(d, cmds, h, bindFuel, replies, lookups, c);
      var whole := Poll(d, cmds, h, fuel, bindFuel, replies, lookups, c);
      if s.Again? {
        var r := Poll(d, cmds, s.handle, fuel - 1, bindFuel, replies, lookups, s.cursor);
        SuccessIsLastAttempt(d, cmds, s.handle, fuel - 1, bindFuel, replies, lookups, s.cursor);
        assert whole == r.(trace := s.trace + r.trace);
        if r.outcome.Value? {
          SuffixOfConcat(s.trace, r.trace, |cmds|);
        }
      } else {
        IterateEnds(d, cmds, h, bindFuel, replies, lookups, c);
        assert whole == Run(s.outcome, s.handle, s.cursor, s.trace);
      }
    }
  }
}

=== FILE: loop_laws.dfy ===
/**
 The deadline loop with its iteration left abstract: `Loop` runs any step
 function the way `Engine.Poll` runs `Engine.Iterate`, so that what follows
 from a run of failed attempts, and from the attempt that ends the loop, is
 proved once, whatever the step does in between.
 */
module LoopLaws {
  import opened Remote
  import opened Engine

  /** `Engine.Poll` with `step` in place of one iteration of an element operation. */
  ghost function Loop<T>(d: Discipline, step: (Handle, Cursor) -> Step<T>, fuel: nat, h: Handle, c: Cursor): Run<T>
    decreases fuel
  {
    if fuel == 0 then Run(if d.silent then Lapsed else Raised(Thrown(h.lastError)), h, c, [])
    else
      match step(h, c)
      case Done(outcome, h1, c1, t) => Run(outcome, h1, c1, t)
      case Again(h1, c1, t) =>
        var r := Loop(d, step, fuel - 1, h1, c1);
        r.(trace := t + r.trace)
  }

  /** The error of a failed reply (any error for one that went through). */
  function ErrorOf<T>(r: Result<T>): (e: Error)
    ensures r.Err? ==> r == Err(e)
  {
    if r.Err? then r.error else Plain("")
  }

  /** Where an attempt failing at its `j`-th command leaves the cursors: past that reply, and one lookup on when the discipline rebinds. */
  function Next(d: Discipline, c: Cursor, j: nat): (n: Cursor)
    ensures n.acts == c.acts + j + 1
    ensures n.finds == (if d.rebinds then c.finds + 1 else c.finds)
  {
    Cursor(c.acts + j + 1, if d.rebinds then c.finds + 1 else c.finds)
  }

  /** Where attempts failing at positions `js` leave the cursors. */
  function After(d: Discipline, c: Cursor, js: seq<nat>): (a: Cursor)
    ensures a.acts >= c.acts + |js|
    decreases |js|
  {
    if |js| == 0 then c else After(d, Next(d, c, js[0]), js[1..])
  }

  /**
   From cursor `c`, whatever the handle, the step fails at position `j` with
   the error of that reply, retries it, records it as the discipline says,
   and goes round again.
   */
  ghost predicate RetriesOnce<T, U>(d: Discipline, step: (Handle, Cursor) -> Step<T>, replies: Replies<U>, c: Cursor, j: nat) {
    var e := ErrorOf(replies(c.acts + j));
    && d.Retries(e)
    && forall hh {:trigger step(hh, c)} ::
         var s := step(hh, c);
         s.Again? && s.cursor == Next(d, c, j) && s.handle.lastError == d.Note(hh.lastError, e)
  }

  /** Consecutive retried attempts from cursor `c`, failing at positions `js`. */
  ghost predicate Chain<T, U>(d: Discipline, step: (Handle, Cursor) -> Step<T>, replies: Replies<U>, c: Cursor, js: seq<nat>)
    decreases |js|
  {
    |js| == 0 || (RetriesOnce(d, step, replies, c, js[0]) && Chain(d, step, replies, Next(d, c, js[0]), js[1..]))
  }

  /** From cursor `at`, whatever the handle, the step ends the loop with `o`, leaving the cursors at `end`. */
  ghost predicate Ends<T>(step: (Handle, Cursor) -> Step<T>, at: Cursor, o: Outcome<T>, end: Cursor) {
    forall hh {:trigger step(hh, at)} :: var s := step(hh, at); s.Done? && s.outcome == o && s.cursor == end
  }

  /** From cursor `at`, whatever the handle, the step records the failure `e` as the discipline says. */
  ghost predicate Noting<T>(d: Discipline, step: (Handle, Cursor) -> Step<T>, at: Cursor, e: Error) {
    forall hh {:trigger step(hh, at)} :: step(hh, at).handle.lastError == d.Note(hh.lastError, e)
  }

  /**
   Retried attempts use one unit of budget each and leave the loop to go on
   from where they stopped, with a handle `last` whose `lastException` is the
   last of their failures when the discipline records retried failures, and
   untouched otherwise.
   */
  lemma {:induction false} LoopRetries<T, U>(d: Discipline, step: (Handle, Cursor) -> Step<T>, replies: Replies<U>, fuel: nat, h: Handle,
                                             c: Cursor, js: seq<nat>)
      returns (last: Handle)
    requires |js| <= fuel && Chain(d, step, replies, c, js)
    ensures |js| == 0 || !d.notesRetried ==> last.lastError == h.lastError
    ensures |js| > 0 && d.notesRetried ==> last.lastError == Some(ErrorOf(replies(After(d, c, js).acts - 1)))
    ensures var whole := Loop(d, step, fuel, h, c);
      var r := Loop(d, step, fuel - |js|, last, After(d, c, js));
      whole.outcome == r.outcome && whole.handle == r.handle && whole.cursor == r.cursor
    decreases |js|
  {
    if |js| == 0 {
      last := h;
    } else {
      var s := step(h, c);
      last := LoopRetries(d, step, replies, fuel - 1, s.handle, Next(d, c, js[0]), js[1..]);
    }
  }

  /** Retried attempts followed, within the budget, by an attempt that ends the loop: the loop ends as that attempt does. */
  lemma {:induction false} LoopEnds<T, U>(d: Discipline, step: (Handle, Cursor) -> Step<T>, replies: Replies<U>, fuel: nat, h: Handle,
                                          c: Cursor, js: seq<nat>, o: Outcome<T>, end: Cursor)
      returns (last: Handle)
    requires |js| < fuel && Chain(d, step, replies, c, js) && Ends(step, After(d, c, js), o, end)
    ensures |js| == 0 || !d.notesRetried ==> last.lastError == h.lastError
    ensures |js| > 0 && d.notesRetried ==> last.lastError == Some(ErrorOf(replies(After(d, c, js).acts - 1)))
    ensures var r := Loop(d, step, fuel, h, c);
      r.outcome == o && r.cursor == end && r.handle == step(last, After(d, c, js)).handle
  {
    last := LoopRetries(d, step, replies, fuel, h, c, js);
    var s := step(last, After(d, c, js));
  }

  /**
   Retried attempts followed by one that throws `e`, which the discipline
   does not retry: `e` is thrown, recorded when the discipline records what
   it rethrows; a discipline that records nothing leaves `lastException` as
   it was.
   */
  lemma {:induction false} LoopStops<T, U>(d: Discipline, step: (Handle, Cursor) -> Step<T>, replies: Replies<U>, fuel: nat, h: Handle,
                                           c: Cursor, js: seq<nat>, e: Error, end: Cursor)
    requires |js| < fuel && !d.Retries(e) && Chain(d, step, replies, c, js)
    requires Ends(step, After(d, c, js), Raised(e), end) && Noting(d, step, After(d, c, js), e)
    ensures var r := Loop(d, step, fuel, h, c);
      && r.outcome == Raised(e) && r.cursor == end
      && (d.notesPermanent ==> r.handle.lastError == Some(e))
      && (!d.notesPermanent && !d.notesRetried ==> r.handle.lastError == h.lastError)
  {
    var last := LoopEnds(d, step, replies, fuel, h, c, js, Raised(e), end);
    assert step(last, After(d, c, js)).handle.lastError == d.Note(last.lastError, e);
  }

  /** Retried attempts that use up the whole budget: the loop falls through or throws `lastException`, as the discipline says. */
  lemma {:induction false} LoopExhausts<T, U>(d: Discipline, step: (Handle, Cursor) -> Step<T>, replies: Replies<U>, fuel: nat, h: Handle,
                                              c: Cursor, js: seq<nat>)
    requires |js| == fuel && Chain(d, step, replies, c, js)
    ensures var r := Loop(d, step, fuel, h, c);
      && (fuel == 0 || !d.notesRetried ==> r.handle.lastError == h.lastError)
      && (fuel > 0 && d.notesRetried ==> r.handle.lastError == Some(ErrorOf(replies(After(d, c, js).acts - 1))))
      && r.outcome == (if d.silent then Lapsed else Raised(Thrown(r.handle.lastError)))
      && r.cursor == After(d, c, js)
  {
    var last := LoopRetries(d, step, replies, fuel, h, c, js);
  }
}

=== FILE: remote.dfy ===
/**
 The boundary between the wrapper layer and the browser automation transport.

 Every remote call the wrappers make (an element lookup, a command on a
 resolved element, a script, a switch to a dialog) is answered by an oracle:
 a function from the running number of that kind of call to the reply the
 transport gives.  Exceptions become values of the tagged `Error` kind.
 */
module Remote {

  /** How an element is found; the two strategies the element factory offers. */
  datatype Locator = XPath(expression: string) | LinkText(text: string)

  /** An opaque reference to a remote DOM node, as returned by a lookup. */
  datatype ElemRef = ElemRef(id: nat)

  /** The exception kinds the wrappers tell apart. */
  datatype Error =
    | StaleElementReference
    | InvalidElementState
    | ElementNotInteractable
    | ElementNotVisible
    | ElementClickIntercepted
    | ElementNotSelectable
    | NoSuchElement
    | NoAlertPresent
    | NullReference(message: string)
    | WebDriverFailure(message: string)   // any other transport error
    | Plain(message: string)              // a bare exception raised by the wrappers themselves

  /**
   The kind of `e` and every kind it derives from in the client library's
   exception hierarchy, below the common transport exception: a visibility
   or click-interception failure is a kind of not-interactable failure, and
   that, like a not-selectable failure, is a kind of invalid-state failure.
   An `is` test or a `catch` of a kind holds for exactly the errors whose
   ancestry contains it.
   */
  function Ancestry(e: Error): (kinds: set<Error>)
    ensures e in kinds
  {
    match e
    case ElementNotVisible => {ElementNotVisible, ElementNotInteractable, InvalidElementState}
    case ElementClickIntercepted => {ElementClickIntercepted, ElementNotInteractable, InvalidElementState}
    case ElementNotInteractable => {ElementNotInteractable, InvalidElementState}
    case ElementNotSelectable => {ElementNotSelectable, InvalidElementState}
    case _ => {e}
  }

  /** What the runtime says when a null reference is thrown or dereferenced. */
  const NullMessage := "Object reference not set to an instance of an object."

  datatype Option<+T> = None | Some(value: T)

  datatype Result<+T> = Ok(value: T) | Err(error: Error)

  /** The i-th reply of the transport to one kind of call. */
  type Replies<T> = nat -> Result<T>

  /**
   The clock as the loops see it: a loop whose deadline lies `t` seconds
   ahead gets `clock(t)` iterations before the deadline check fails.
   */
  type Clock = int -> nat

  /** Commands sent to a resolved element. */
  datatype Command =
    | IsDisplayed
    | IsEnabled
    | ReadText
    | ClickOn
    | SendText(keys: string)
    | ClearText
    | ReadAttribute(name: string)
    | ReadCssValue(name: string)
    | SubmitForm
    | Execute(script: string)

  /** One remote call, as it appears in a trace. */
  datatype Call = Find(locator: Locator) | Act(target: ElemRef, command: Command)

  /** How many element commands and how many lookups have been answered so far. */
  datatype Cursor = Cursor(acts: nat, finds: nat)

  /** `throw lastException`: throwing a null reference raises a null-reference error. */
  function Thrown(last: Option<Error>): (e: Error)
    ensures last.Some? ==> e == last.value
    ensures last.None? ==> e.NullReference?
  {
    match last
    case Some(x) => x
    case None => NullReference(NullMessage)
  }
}

=== FILE: scripts.dfy ===
/**
 The JavaScript snippets the element handle and the session build before
 handing them to the script executor, and recognisers that read back what a
 snippet asks the browser to do.  Each builder is paired with its recogniser
 by a round-trip lemma.
 */
module Scripts {
  import opened Remote
  import Decimal

  /** `s` with `prefix` and `suffix` removed, when `s` has both. */
  function Between(prefix: string, suffix: string, s: string): (r: Option<string>)
    ensures r.Some? ==> s == prefix + r.value + suffix
  {
    if |prefix| + |suffix| <= |s| && s[..|prefix|] == prefix && s[|s| - |suffix|..] == suffix
    then Some(s[|prefix|..|s| - |suffix|])
    else None
  }

  lemma BetweenWrapped(prefix: string, x: string, suffix: string)
    ensures Between(prefix, suffix, prefix + x + suffix) == Some(x)
  {
    var s := prefix + x + suffix;
    assert s[..|prefix|] == prefix;
    assert s[|s| - |suffix|..] == suffix;
    assert s[|prefix|..|s| - |suffix|] == x;
  }

  /**
   A single-quoted JavaScript string literal whose contents hold no quote,
   backslash or line break denotes exactly those contents.
   */
  predicate QuoteSafe(t: string) {
    forall k :: 0 <= k < |t| ==> t[k] != '\'' && t[k] != '\\' && t[k] != '\n' && t[k] != '\r'
  }

  /** `bool.ToString().ToLower()`. */
  function BoolLiteral(b: bool): string {
    if b then "true" else "false"
  }

  function ParseBool(s: string): Option<bool> {
    if s == "true" then Some(true) else if s == "false" then Some(false) else None
  }

  const ScrollIntoViewPrefix := "arguments[0].scrollIntoView("
  const CallEnd := ");"

  /** The script `ScrollIntoView(alignToTop)` executes against the element. */
  function ScrollIntoViewScript(alignToTop: bool): string {
    ScrollIntoViewPrefix + BoolLiteral(alignToTop) + CallEnd
  }

  /** The argument a `scrollIntoView` script passes, if it is one. */
  function ScrollIntoViewArgument(script: string): Option<bool> {
    match Between(ScrollIntoViewPrefix, CallEnd, script)
    case Some(arg) => ParseBool(arg)
    case None => None
  }

  lemma ScrollIntoViewRoundTrip(alignToTop: bool)
    ensures ScrollIntoViewArgument(ScrollIntoViewScript(alignToTop)) == Some(alignToTop)
  {
    BetweenWrapped(ScrollIntoViewPrefix, BoolLiteral(alignToTop), CallEnd);
  }

  const ScrollByPrefix := "window.scrollBy("

  /** The script `ScrollBy(x, y)` executes. */
  function ScrollByScript(x: int, y: int): string {
    ScrollByPrefix + Decimal.IntToString(x) + "," + Decimal.IntToString(y) + CallEnd
  }

  /** `s` split at the first occurrence of `sep`. */
  function SplitAt(s: string, sep: char): (r: Option<(string, string)>)
    ensures r.Some? ==> s == r.value.0 + [sep] + r.value.1 && sep !in r.value.0
    decreases |s|
  {
    if |s| == 0 then None
    else if s[0] == sep then Some(([], s[1..]))
    else
      match SplitAt(s[1..], sep)
      case Some(parts) => Some(([s[0]] + parts.0, parts.1))
      case None => None
  }

  lemma {:induction false} SplitAtJoin(a: string, sep: char, b: string)
    requires sep !in a
    ensures SplitAt(a + [sep] + b, sep) == Some((a, b))
    decreases |a|
  {
    var s := a + [sep] + b;
    if |a| == 0 {
      assert s[1..] == b;
    } else {
      assert s[1..] == a[1..] + [sep] + b;
      SplitAtJoin(a[1..], sep, b);
      assert [s[0]] + a[1..] == a;
    }
  }

  /** The offsets a `window.scrollBy` script scrolls by, if it is one. */
  function ScrollByOffsets(script: string): Option<(int, int)> {
    match Between(ScrollByPrefix, CallEnd, script)
    case None => None
    case Some(args) =>
      match SplitAt(args, ',')
      case None => None
      case Some(parts) =>
        match (Decimal.ParseInt(parts.0), Decimal.ParseInt(parts.1))
        case (Some(x), Some(y)) => Some((x, y))
        case _ => None
  }

  lemma ScrollByRoundTrip(x: int, y: int)
    ensures ScrollByOffsets(ScrollByScript(x, y)) == Some((x, y))
  {
    var sx, sy := Decimal.IntToString(x), Decimal.IntToString(y);
    assert ScrollByScript(x, y) == ScrollByPrefix + (sx + [','] + sy) + CallEnd;
    BetweenWrapped(ScrollByPrefix, sx + [','] + sy, CallEnd);
    Decimal.IntToStringHasNoSeparators(x);
    SplitAtJoin(sx, ',', sy);
    Decimal.IntToStringRoundTrip(x);
    Decimal.IntToStringRoundTrip(y);
  }

  /** `JSClick` runs this script fixed. */
  const ClickScript := "arguments[0].click();"

  const MouseEventPrefix := "var event = new MouseEvent('"
  const MouseEventSuffix := "');arguments[0].dispatchEvent(event);"

  /** The script `ExecuteMouseEvent(kind)` executes against the element. */
  function MouseEventScript(kind: string): string {
    MouseEventPrefix + kind + MouseEventSuffix
  }

  /** The event type a dispatch script fires at its element, if it is one. */
  function DispatchedEvent(script: string): Option<string> {
    match Between(MouseEventPrefix, MouseEventSuffix, script)
    case Some(kind) => if QuoteSafe(kind) then Some(kind) else None
    case None => None
  }

  lemma MouseEventRoundTrip(kind: string)
    requires QuoteSafe(kind)
    ensures DispatchedEvent(MouseEventScript(kind)) == Some(kind)
  {
    BetweenWrapped(MouseEventPrefix, kind, MouseEventSuffix);
  }

  const AlertPrefix := "alert('"
  const AlertSuffix := "');"

  /** The script `CreateAlert(text)` executes: the text is spliced in without escaping. */
  function AlertScript(text: string): string {
    AlertPrefix + text + AlertSuffix
  }

  /** The message a script of the form `alert('...');` shows, if it is one. */
  function AlertMessage(script: string): Option<string> {
    match Between(AlertPrefix, AlertSuffix, script)
    case Some(text) => if QuoteSafe(text) then Some(text) else None
    case None => None
  }

  lemma AlertRoundTrip(text: string)
    requires QuoteSafe(text)
    ensures AlertMessage(AlertScript(text)) == Some(text)
  {
    BetweenWrapped(AlertPrefix, text, AlertSuffix);
  }

  /**
   The text is spliced in verbatim, whatever it holds: the script is always
   the alert wrapper around exactly the text, and without escaping a text
   holding a quote or a line break does not make a well-formed alert of
   that text.
   */
  lemma AlertTextIsNotEscaped(text: string)
    ensures Between(AlertPrefix, AlertSuffix, AlertScript(text)) == Some(text)
    ensures !QuoteSafe(text) ==> AlertMessage(AlertScript(text)) == None
  {
    BetweenWrapped(AlertPrefix, text, AlertSuffix);
  }
}
